=== FILE: README.md ===
# Loam asset pipeline: manifest validation and image conversion

A Dafny model of the decision logic of the Loam asset pipeline. `pack_loam_assets.py`
takes a JSON manifest of game assets. It checks the manifest against a fixed schema,
then checks that every raw asset file exists, then sends each image asset to
`convert_image` in `convert_to_intermediate.py`. That function picks an external
texture tool from the file's extension, runs it, then runs the intermediate packer.
Every failure ends the run.

The model is functional. It starts from the already-parsed JSON value and treats the
outside world as parameters:
- file existence is an oracle `isFile: string -> bool`;
- each external process is an oracle `run: seq<string> -> ToolResult`;
- Python's `str` of the tag list is a function `repr: seq<string> -> string`;
- the script's own directory is a string `scriptDir`.

Modules:
- `Wrappers`: `Option` and `Result`.
- `Json`: the parsed value. An object is its members in insertion order, and lookup
  finds the first member with the key.
- `Manifest`: `verify_json_contents` and its two field checks, written as a decoder
  from JSON to a typed `Manifest` of `Asset`s. `Validate` returns the first failing
  check. `Accepted` is an independent description of an acceptable manifest.
- `Presence`: `check_for_assets`, written as the source's loop and as a report.
- `PathText`: Windows `os.path.splitext` and the part of `str.lower` that can change
  a comparison with an ASCII extension.
- `Tools`: a plan is a sequence of steps. It runs in order and stops at the first
  step that does not exit with 0.
- `ImageConversion`: `convert_image`. It covers the tag display, the tool choice, the
  exact argument vectors, the `.ktx2` path, and the abort and echo rules.
- `Driver`: `main`. It covers the command line, the `.json` gate, the order of the
  stages, dispatch on the asset type, and `--setup-file-dir` as a list of folders.

What the code checks and does, and so what the model covers:
- At the root the code validates only `is_mod` (bool), `game_code` (str) and `assets`
  (dict). It reads nothing else there, and never looks inside `game_code`.
- Only `image` assets are converted. `audio`, `video`, `json` and `font` assets are
  reported as not implemented and skipped. They are not errors.
- Paths use backslashes: `raw\<type>\<filename>`.
- `convert_image` never uses its `interFolderPath` argument, so the model drops it.
- After the conversion stage the run ends. Nothing assembles a package or counts the
  files produced.

## Model

| member | source | states |
|---|---|---|
| Json.LookupFindsFirst | pack_loam_assets.py:27-31 | `key in keys` holds exactly when some member has the key, and `d[key]` is the value of the first such member |
| Json.LookupAppend | pack_loam_assets.py:44-48 | appending members never changes the lookup of a key that is already present, nor of a key that none of the appended members has |
| Manifest.CheckBaseField | pack_loam_assets.py:27-33 | a base field passes exactly when it is present with exactly the expected runtime type; an absent field fails as missing, a present field of another type fails with the type found, and on success the field's value is returned |
| Manifest.CheckAssetField | pack_loam_assets.py:35-41 | the same presence-then-exact-type rule for a member of an asset, with the asset's name in the error |
| Manifest.BaseFieldAsWritten | pack_loam_assets.py:27-33 | the check as written passes exactly when the corrected check passes, and it raises `TypeError` exactly on the inputs the corrected check refuses for a wrong type |
| Manifest.AssetFieldAsWritten | pack_loam_assets.py:35-41 | the same for the members of an asset, whatever the asset's name |
| Manifest.MistypedBaseFieldRaises | pack_loam_assets.py:27-33 | as written, a base member that is present with the wrong type always raises `TypeError` while the message is built; a missing one always exits through `error`; the check passes on exactly the inputs the corrected check accepts |
| Manifest.MistypedAssetFieldRaises | pack_loam_assets.py:35-41 | the same for the members of an asset |
| Manifest.NumericIsModRaisesTypeError | pack_loam_assets.py:31-33 | `"is_mod": 1` raises `TypeError`, and the corrected check reports that `is_mod` holds a number |
| Manifest.StringTagsRaiseTypeError | pack_loam_assets.py:39-41 | `"tags": "a"` raises `TypeError`, and the corrected check reports that `tags` holds a str |
| Manifest.DecodeAsset | pack_loam_assets.py:54-67 | an accepted asset is an object whose `type` is a str in the valid types, whose `filename` is a str and whose `tags` is a list; the decoded asset keeps the entry's name and exactly those three values; every error it reports is about that asset, by name |
| Manifest.Decode | pack_loam_assets.py:43-67 | the root error is reported exactly when the root is not an object; an accepted manifest has `is_mod` a bool, `game_code` a str and a non-empty `assets` dict, carries those values, and has one asset per entry of `assets`, asset i being entry i decoded; an error about an asset is the error of the asset loop over the entries of `assets`, reached only once the three base fields passed |
| Manifest.Validate | pack_loam_assets.py:43-67 | the root error is reported exactly when the root is not an object; passing implies the three base fields have their types and `assets` is non-empty; an error about an asset comes from the first failing entry of `assets`, every entry before it having passed, and is reported only once the base fields passed |
| Manifest.ValidateAcceptsExactly | pack_loam_assets.py:43-67 | validation passes exactly when the root is an object; `is_mod` is a bool, `game_code` a str and `assets` a dict; `assets` is non-empty; and every asset has a name of at most 32 characters and an object value whose `type` is a str from the valid types, whose `filename` is a str and whose `tags` is a list |
| Manifest.ValidateReportsFirstMissingBase | pack_loam_assets.py:43-48 | the error is "missing field f" exactly when f is absent and every base field checked before f (`is_mod`, then `game_code`, then `assets`) is present with its right type |
| Manifest.ValidateReportsFirstMistypedBase | pack_loam_assets.py:27-48 | the error is "field f has type t" exactly when f is present with type t other than its expected type, and every base field before f passed |
| Manifest.ValidateEmptyAssets | pack_loam_assets.py:50-52 | an empty `assets` object is the error exactly when all three base fields passed and `assets` has no member |
| Manifest.AssetChecksInOrder | pack_loam_assets.py:54-67 | per asset the first failing check is reported, in the order name length > 32, object-ness, `type` present, `type` a str (any other type t is reported as t), `type` in the valid types, `filename` present, `filename` a str, `tags` present, `tags` a list; each error holds exactly when every check before it passed; a name of exactly 32 characters passes the length check |
| Manifest.DecodeAssets | pack_loam_assets.py:54-67 | the asset loop succeeds exactly when every entry passes every per-asset check, and every error it reports is about an asset |
| Manifest.DecodeAssetStage | pack_loam_assets.py:50-67 | the empty-assets error is reported exactly when there are no entries; otherwise any error is about an asset and is the asset loop's error; on success there is one asset per entry, asset i being entry i decoded |
| Manifest.DecodeAssetsFirstFailure | pack_loam_assets.py:54-67 | a failing asset loop reports the error of some entry k, and every entry before k passed all its checks |
| Manifest.DecodeAssetsInOrder | pack_loam_assets.py:191-197 | a validated `assets` object gives one asset per entry, in manifest order, with that entry's name, `type`, `filename` and `tags` |
| Manifest.ValidateSeesOnlyCheckedMembers | pack_loam_assets.py:43-67 | two root objects that agree on `is_mod`, on `assets`, and on whether `game_code` is present and with which type get the same result, so the content of `game_code` is never read |
| Manifest.ExtraMembersIgnored | pack_loam_assets.py:43-48 | adding root members other than `is_mod`, `game_code` and `assets` never changes the result |
| Manifest.GameCodeContentIgnored | pack_loam_assets.py:47 | any two string `game_code` values, of any length or content, give the same result |
| Presence.RawPath | pack_loam_assets.py:73 | the path is `raw\`, then the asset's type, then one `\`, then the file name, each in place and nothing else |
| Presence.Report | pack_loam_assets.py:72-79 | one entry per asset; every entry is found exactly when every asset's raw file `raw\<type>\<filename>` exists |
| Presence.CheckForAssets | pack_loam_assets.py:69-82 | the loop checks `raw\<type>\<filename>` for every asset in order and does not stop at a missing one; the check passes exactly when every such file exists |
| Presence.MissingPaths | pack_loam_assets.py:74-79 | the paths listed as missing are exactly the reported paths whose file was not found |
| Presence.MissingReportIsComplete | pack_loam_assets.py:72-82 | the check fails exactly when the missing list is non-empty; every asset whose file is absent appears in it, and every path in it is absent |
| PathText.SplitExt | convert_to_intermediate.py:22 | root and extension put back together give the file name; a non-empty extension is one dot followed by no dots and no separators |
| PathText.SplitExtAtLastDot | convert_to_intermediate.py:22-24 | when the last component has a character other than a dot before its last dot, the name splits at that dot and the root is the unchanged stem |
| PathText.SplitExtLeadingDots | convert_to_intermediate.py:22 | when every character before the last dot is a dot (for example `.ktx`), the extension is empty and the root is the whole name |
| PathText.SplitExtNoDot | convert_to_intermediate.py:22 | a name without a dot has an empty extension |
| PathText.Lower | convert_to_intermediate.py:23 | in the model, lower-casing keeps the length and maps each character on its own |
| Tools.RunSteps | convert_to_intermediate.py:25-54 | a run launches at most the planned tools, always the first one; without failure it launched them all; a failure names the last tool launched, whose result is not success |
| Tools.RunStepsAbortsOnFirstFailure | convert_to_intermediate.py:27-54 | the tools launched are a prefix of the plan, and each one except the last exited with 0; the run fails exactly when it did not launch the whole plan successfully, and a failure names the last tool launched and its non-zero result |
| ImageConversion.TagStrings | convert_to_intermediate.py:16-17 | the tags are returned as strings when all are strings; otherwise the result is the index of the first tag that is not a string, which raises when added to the display |
| ImageConversion.RenderTags | convert_to_intermediate.py:15-20 | the source's loop (each tag quoted, then `", "` unless it is the last) builds exactly the joined tag line, and stops at the first tag that is not a string |
| ImageConversion.TagLineShape | convert_to_intermediate.py:15-20 | no tags give an empty display; one tag gives it quoted; one more tag adds one separator and the quoted tag; a non-empty display starts and ends with a double quote, so there is no trailing separator |
| ImageConversion.BinPath | convert_to_intermediate.py:46-47 | the packer's folder is the script's folder, then `\`, then `exe_bin\` |
| ImageConversion.ImageEchoesPackerOutput | convert_to_intermediate.py:27-50 | what one asset shows of its tools' output is the non-empty stdout of the packer, if it was launched, and nothing of the conversion tool |
| ImageConversion.ConversionFor | convert_to_intermediate.py:22-42 | a name without an extension goes to the creation tool; the upgrade needs a four-character extension and the no-conversion case a five-character one |
| ImageConversion.ImageSteps | convert_to_intermediate.py:22-48 | every plan ends with `[binPath+"inter_process.exe", "i", raw+root+".ktx2", assetName, tags]`, with echoed output; the root is the name without its extension, unchanged; at most one non-echoed conversion tool, the upgrade or the creation command, runs before the packer |
| ImageConversion.ConvertImage | convert_to_intermediate.py:11-58 | a non-string tag stops the asset before any tool runs, at the first such tag; otherwise every tag is a str and the trace is the run of the asset's plan, so `ImageRunRules` applies to it: one or two tools were launched, the first being the first step of the plan |
| ImageConversion.ConversionOfDottedName | convert_to_intermediate.py:22-42 | for `stem.x` the conversion is the upgrade when lower-case `x` is `ktx`, none when it is `ktx2`, and the creation tool otherwise |
| ImageConversion.LegacyFileIsUpgraded | convert_to_intermediate.py:22-48 | a `.ktx` file in any letter case runs exactly `ktx2ktx2 -f raw+filename`, then the packer on `raw+stem+".ktx2"`; the creation tool is not run |
| ImageConversion.OtherFileIsCreated | convert_to_intermediate.py:32-48 | any other extension except `.ktx2` runs exactly `ktx create` with `--format R8G8B8A8_SRGB`, `--assign-tf KHR_DF_TRANSFER_SRGB`, `--generate-mipmap` and `--encode basis-lz`, from `raw+filename` to `raw+stem+".ktx2"`, then the packer |
| ImageConversion.TargetFileIsPackedAsIs | convert_to_intermediate.py:41-48 | a `.ktx2` file in any letter case runs no conversion tool, only the packer |
| ImageConversion.ExtensionlessFileIsCreated | convert_to_intermediate.py:22-36 | a name with no extension, such as `tex` or `.ktx`, goes to the creation tool, and the output is the whole name plus `.ktx2` |
| ImageConversion.ImageRunRules | convert_to_intermediate.py:27-54 | a failing conversion tool stops the asset before the packer and echoes no stdout; otherwise the packer runs, its non-empty stdout is echoed whatever its exit code, and the asset fails exactly when the packer does not exit with 0 |
| Driver.ParseCommand | pack_loam_assets.py:86-121 | fewer than two arguments, and only that, is an error; `--help`, `--setup-file-dir` and `--create-json-example` select their commands; any other first argument is the manifest path |
| Driver.ParseCommandRoundTrip | pack_loam_assets.py:86-121 | the parsed command gives back the first argument; a command written as the first argument parses back to itself, except a manifest path spelled like a flag |
| Driver.IsJsonPath | pack_loam_assets.py:168-171 | a path without an extension is refused; an accepted path has a five-character extension starting with a dot |
| Driver.JsonGateByExtension | pack_loam_assets.py:168-171 | `stem.x` passes the input gate exactly when lower-case `x` is `json` |
| Driver.UpperCaseJsonAccepted | pack_loam_assets.py:168-171 | `X.JSON` passes the input gate |
| Driver.TextFileRejected | pack_loam_assets.py:168-171 | `X.txt` is refused |
| Driver.BareDotJsonRejected | pack_loam_assets.py:169 | a file named just `.json` has no extension and is refused |
| Driver.PackStagesInOrder | pack_loam_assets.py:168-187 | a wrong extension or an invalid manifest ends the run before any file is checked or any tool launched; once the manifest is valid every raw file is checked, and the run ends, with no tool launched, exactly when one is missing; the output shown is always the packer output of the tools launched |
| Driver.ConvertAll | pack_loam_assets.py:191-208 | the conversion stage ends without error, on a non-string tag or on a tool failure, and converts at most one asset per manifest entry |
| Driver.ConvertAllFollowsPlan | pack_loam_assets.py:191-208 | the conversion stage launches a prefix of the image assets' plans, one asset after another in manifest order, and each launched tool except the last succeeded; without error it launched them all and converted exactly the image assets; a tool failure ends on the last tool launched; a stage that ends on a non-string tag launched the whole plan of every image asset before it, all successfully, and stopped at the first image asset whose tags are not all strings, reporting its name and its first non-string tag |
| Driver.ConvertAllEchoesPackerOutput | pack_loam_assets.py:191-208 | the output the stage shows is the non-empty stdout of each packer launch, in launch order, and nothing of the conversion tools |
| Driver.ConvertAllStopsAtFailingAsset | pack_loam_assets.py:191-208 | a stage that ends on an error stopped at an image asset m that the error names: every image asset before m ran its whole plan successfully, the error is m's first non-string tag or a tool of m's plan with its unsuccessful result, and the assets converted are exactly the image assets before m |
| Driver.Pack | pack_loam_assets.py:168-208 | the run fails on the input gate exactly when the lower-cased extension of the path, as `os.path.splitext` splits it, is not `.json` (so `.json` and `a\.json`, which have no extension, are refused); a file is looked for only after the gate and validation passed; a tool is launched only after that and after every raw file was found |
| Driver.PackConvertsOnlyImages | pack_loam_assets.py:179-208 | a run that completes had an accepted manifest and found every raw file; it launched exactly the image assets' plans, all successfully, and converted exactly the image assets, so other types launch nothing |
| Driver.ProbedFileIsConverted | pack_loam_assets.py:199-200 | for an image asset, the path the presence check looks for (`raw\image\<filename>`, line 73) is the raw file given to the conversion tools |
| Driver.SetupDirs | pack_loam_assets.py:110-119 | eleven folders, each of them inside the working directory |
| Driver.SetupDirsCoverTypes | pack_loam_assets.py:110-119 | `--setup-file-dir` lists a raw and an intermediate folder for each of the five types, then `packaged`: eleven folders |
| Driver.ToCreate | pack_loam_assets.py:17-25 | the folders created are exactly the listed folders that did not already exist, each created once |
| Driver.RepeatedFolderMadeOnce | pack_loam_assets.py:17-22 | a folder listed twice is created once, since the second check sees the folder the first made |
| Driver.SetupIsIdempotent | pack_loam_assets.py:17-25 | a folder is created only when absent; after one run every folder exists and a second run creates nothing |

## Left out

- Terminal output: colours, the per-step messages, the working-directory banner and the `--help` text. They are cosmetic.
- `--create-json-example`: it writes a fixed text file. The model recognises the command but does not model the file.
- Reading the manifest file and `json.loads` are I/O and a library call. The model starts from the parsed value. Numbers are kept as reals (only their kind matters), and object members are assumed to have distinct keys, as a Python `dict` does.
- `subprocess.run` is an oracle that depends only on the argument vector. The model does not track the files the tools write, for example the `.ktx2` file a conversion leaves beside the original.
- Python's `str` of the tag list (quoting and escaping) is the parameter `repr`.
- `str.lower` is modelled for A–Z and for KELVIN SIGN, whose lower case is `k`. No other character lower-cases to ASCII, so comparisons with `.json`, `.ktx` and `.ktx2` are exact. Other characters keep their value in the model.
- PathText.Lower: Python's `str.lower` can change a string's length, for example U+0130 becomes two characters. The model maps each character to exactly one character. Only characters that lower-case to ASCII matter for the extension comparisons.
- Python strings may hold lone surrogate code points and Dafny characters may not. So the 32-character name limit is modelled on Unicode scalar values.
- `os.makedirs` also creates missing parent folders, and creation can fail. The model keeps only the list of folders and which of them are created.
- The process exit status: every error ends the run through `SystemExit` or an uncaught exception. The model reports the error instead.
- pack_loam_assets.py:210 is an empty `# Package assets` placeholder: nothing assembles a package after the conversion stage, so the model ends there too.

## Findings

| source | as written | input that shows it | evidently intended | confidence | as-written member | corrected member |
|---|---|---|---|---|---|---|
| pack_loam_assets.py:31-33 | the wrong-type message adds the type objects `expectedType` and `foundType` to strings, so building it raises `TypeError` and the message is never shown | a manifest with `"is_mod": 1` | stop through `error` with a message that names the expected and the found type | high; not executed | Manifest.BaseFieldAsWritten, Manifest.NumericIsModRaisesTypeError | Manifest.CheckBaseField |
| pack_loam_assets.py:39-41 | the asset member check builds its wrong-type message the same way and raises `TypeError` | an asset with `"tags": "a"` | stop through `error` with a message that names the asset, the expected and the found type | high; not executed | Manifest.AssetFieldAsWritten, Manifest.StringTagsRaiseTypeError | Manifest.CheckAssetField |

=== FILE: driver.dfy ===
/** `main` of pack_loam_assets.py: the command line, the input-extension gate, and the
    stages validate, check presence, convert, each ending the run on its first failure.
    File reading and JSON parsing are outside the model: the run starts from the parsed
    manifest. File existence and the external tools are oracles. */
module Driver {
  import opened Wrappers
  import opened Json
  import opened PathText
  import opened Tools
  import opened Manifest
  import opened Presence
  import opened ImageConversion

  const RawFolder := "raw"
  const InterFolder := "inter"
  const PackagedFolder := "packaged"
  const ImageFolder := "image"

  /** The raw folder `convert_image` is given for image assets. */
  const ImageRaw := RawFolder + "\\" + ImageFolder + "\\"

  /** The first command-line argument decides what the run does. */
  datatype Command = Help | SetupFileDir | CreateJsonExample | PackManifest(path: string)

  /** The three flags the first argument may be; anything else names the manifest. */
  const Flags: set<string> := {"--help", "--setup-file-dir", "--create-json-example"}

  /** `sys.argv` to a command; nothing when there are too few arguments. */
  function ParseCommand(argv: seq<string>): (r: Option<Command>)
    ensures r.None? <==> |argv| < 2
    ensures |argv| >= 2 && argv[1] == "--help" ==> r == Some(Help)
    ensures |argv| >= 2 && argv[1] == "--setup-file-dir" ==> r == Some(SetupFileDir)
    ensures |argv| >= 2 && argv[1] == "--create-json-example" ==> r == Some(CreateJsonExample)
    ensures |argv| >= 2 && argv[1] !in Flags ==> r == Some(PackManifest(argv[1]))
  {
    if |argv| < 2 then None
    else if argv[1] == "--help" then Some(Help)
    else if argv[1] == "--setup-file-dir" then Some(SetupFileDir)
    else if argv[1] == "--create-json-example" then Some(CreateJsonExample)
    else Some(PackManifest(argv[1]))
  }

  /** The first argument that selects a command. */
  function CommandArg(c: Command): string {
    match c
    case Help => "--help"
    case SetupFileDir => "--setup-file-dir"
    case CreateJsonExample => "--create-json-example"
    case PackManifest(path) => path
  }

  /** Only the first argument matters, and it round-trips: the argument a command is
      selected by selects that command again, unless a manifest path is spelled like
      a flag, which the flag takes over. */
  lemma ParseCommandRoundTrip(argv: seq<string>, c: Command, prog: string, rest: seq<string>)
    ensures |argv| >= 2 ==> CommandArg(ParseCommand(argv).value) == argv[1]
    ensures !(c.PackManifest? && c.path in Flags) ==> ParseCommand([prog, CommandArg(c)] + rest) == Some(c)
  {
    var a := [prog, CommandArg(c)] + rest;
    assert a[1] == CommandArg(c);
  }

  /** The input gate: the lower-cased extension must be `.json`. */
  function IsJsonPath(path: string): (r: bool)
    ensures SplitExt(path).1 == [] ==> !r
    ensures r ==> |SplitExt(path).1| == 5 && SplitExt(path).1[0] == '.'
  {
    Lower(SplitExt(path).1) == ".json"
  }

  /** Why a pack run stopped. */
  datatype RunError =
    | NotJsonInput
    | Invalid(reason: ValidationError)
    | AssetsMissing
    | TagNotString(asset: string, index: nat)
    | ToolFailed(asset: string, failure: ToolFailure)

  /** What the conversion stage did: the tools launched and outputs echoed, in order,
      the image assets turned into intermediate files, and the error that ended it. */
  datatype Conversions = Conversions(invoked: seq<seq<string>>, echoed: seq<string>, converted: seq<string>,
                                     error: Option<RunError>)

  /** The names of the image assets, in manifest order. */
  function ImageNames(assets: seq<Asset>): seq<string> {
    if |assets| == 0 then []
    else if assets[0].assetType == ImageFolder then [assets[0].name] + ImageNames(assets[1..])
    else ImageNames(assets[1..])
  }

  /** The plan of one image asset, or nothing when a tag is not a string. */
  function AssetPlan(a: Asset, binPath: string, repr: seq<string> -> string): Option<seq<Step>> {
    match TagStrings(a.tags)
    case Failure(_) => None
    case Success(strs) => Some(ImageSteps(a.name, a.filename, ImageRaw, binPath, repr(strs)))
  }

  /** Every tool invocation the conversion stage would make if none failed, in order:
      the plans of the image assets one after the other, up to the first image asset
      whose tags stop the run. */
  function Planned(assets: seq<Asset>, binPath: string, repr: seq<string> -> string): seq<seq<string>> {
    if |assets| == 0 then []
    else if assets[0].assetType != ImageFolder then Planned(assets[1..], binPath, repr)
    else match AssetPlan(assets[0], binPath, repr)
      case None => []
      case Some(steps) => Argvs(steps) + Planned(assets[1..], binPath, repr)
  }

  /** The dispatch loop of `main`. Only `image` assets are converted, with raw folder
      `raw\image\`; the other types are reported as not implemented and skipped. The
      first failure ends the loop. */
  function ConvertAll(assets: seq<Asset>, binPath: string, repr: seq<string> -> string,
                      run: seq<string> -> ToolResult): (c: Conversions)
    ensures c.error.None? || c.error.value.TagNotString? || c.error.value.ToolFailed?
    ensures |c.converted| <= |assets|
  {
    if |assets| == 0 then Conversions([], [], [], None)
    else
      var a := assets[0];
      if a.assetType != ImageFolder then ConvertAll(assets[1..], binPath, repr, run)
      else match ConvertImage(a.name, a.filename, a.tags, ImageRaw, binPath, repr, run)
        case BadTag(k) => Conversions([], [], [], Some(TagNotString(a.name, k)))
        case Ran(t) =>
          if t.failure.Some? then Conversions(t.invoked, t.echoed, [], Some(ToolFailed(a.name, t.failure.value)))
          else
            var rest := ConvertAll(assets[1..], binPath, repr, run);
            Conversions(t.invoked + rest.invoked, t.echoed + rest.echoed, [a.name] + rest.converted, rest.error)
  }

  /** The rules of the conversion stage. The tools launched are always a prefix of the
      planned ones, and every one of them but the last succeeded. A stage that ends
      without error launched the whole plan, all of it successfully, and converted
      exactly the image assets; one that ends on a tool failure ends on the last tool
      launched, which did not succeed. */
  predicate FollowsPlan(assets: seq<Asset>, binPath: string, repr: seq<string> -> string, run: seq<string> -> ToolResult) {
    var c := ConvertAll(assets, binPath, repr, run);
    && IsPrefix(c.invoked, Planned(assets, binPath, repr))
    && AllButLastSucceeded(c.invoked, run)
    && (c.error.None? ==>
          && c.invoked == Planned(assets, binPath, repr)
          && AllSucceeded(c.invoked, run)
          && c.converted == ImageNames(assets))
    && (c.error.Some? && c.error.value.ToolFailed? ==> EndsOnFailure(c.invoked, c.error.value.failure, run))
    && (c.error.Some? && c.error.value.TagNotString? ==>
          && c.invoked == Planned(assets, binPath, repr)
          && AllSucceeded(c.invoked, run)
          && exists m :: 0 <= m < |assets| && FirstBadTags(assets, m, c.error.value.asset, c.error.value.index))
  }

  /** Asset m is the first image asset whose tags are not all strings; it is named
      `name` and its first tag that is not a string is at `index`. */
  predicate FirstBadTags(assets: seq<Asset>, m: int, name: string, index: nat) {
    && 0 <= m < |assets|
    && assets[m].assetType == ImageFolder
    && assets[m].name == name
    && TagStrings(assets[m].tags) == Failure(index)
    && forall i :: 0 <= i < m && assets[i].assetType == ImageFolder ==> TagStrings(assets[i].tags).Success?
  }

  /** An asset in front that is not an image, or an image with string tags, moves the
      first bad-tag asset one place on. */
  lemma BadTagsShift(assets: seq<Asset>)
    requires |assets| > 0
    requires assets[0].assetType == ImageFolder ==> TagStrings(assets[0].tags).Success?
    ensures forall m, name, index :: FirstBadTags(assets[1..], m, name, index) ==> FirstBadTags(assets, m + 1, name, index)
  {
  }

  lemma {:induction false} ConvertAllFollowsPlan(assets: seq<Asset>, binPath: string, repr: seq<string> -> string,
                                                 run: seq<string> -> ToolResult)
    ensures var c := ConvertAll(assets, binPath, repr, run);
            && IsPrefix(c.invoked, Planned(assets, binPath, repr))
            && AllButLastSucceeded(c.invoked, run)
            && (c.error.None? ==>
                  && c.invoked == Planned(assets, binPath, repr)
                  && AllSucceeded(c.invoked, run)
                  && c.converted == ImageNames(assets))
            && (c.error.Some? && c.error.value.ToolFailed? ==> EndsOnFailure(c.invoked, c.error.value.failure, run))
            && (c.error.Some? && c.error.value.TagNotString? ==>
                  && c.invoked == Planned(assets, binPath, repr)
                  && AllSucceeded(c.invoked, run)
                  && exists m :: 0 <= m < |assets| && FirstBadTags(assets, m, c.error.value.asset, c.error.value.index))
  {
    if |assets| > 0 {
      ConvertAllFollowsPlan(assets[1..], binPath, repr, run);
      assert FollowsPlan(assets[1..], binPath, repr, run);
      if assets[0].assetType != ImageFolder {
        BadTagsShift(assets);
      } else if TagStrings(assets[0].tags).Success? {
        ImageHeadFollowsPlan(assets, binPath, repr, run);
      } else {
        assert FirstBadTags(assets, 0, assets[0].name, TagStrings(assets[0].tags).error);
      }
    }
  }

  /** An image asset whose plan runs, in front of assets that keep the stage rules,
      keeps them. */
  lemma ImageHeadFollowsPlan(assets: seq<Asset>, binPath: string, repr: seq<string> -> string,
                             run: seq<string> -> ToolResult)
    requires |assets| > 0 && assets[0].assetType == ImageFolder && TagStrings(assets[0].tags).Success?
    requires FollowsPlan(assets[1..], binPath, repr, run)
    ensures FollowsPlan(assets, binPath, repr, run)
  {
    var a := assets[0];
    var steps := ImageSteps(a.name, a.filename, ImageRaw, binPath, repr(TagStrings(a.tags).value));
    if RunSteps(steps, run).failure.None? {
      ImageHeadSucceeded(assets, binPath, repr, run);
    } else {
      ImageHeadFailed(assets, binPath, repr, run);
    }
  }

  /** An image asset at the head whose tools all succeed puts its plan in front of the
      rest of the stage. */
  lemma ImageHeadSucceeded(assets: seq<Asset>, binPath: string, repr: seq<string> -> string,
                           run: seq<string> -> ToolResult)
    requires |assets| > 0 && assets[0].assetType == ImageFolder && TagStrings(assets[0].tags).Success?
    requires RunSteps(ImageSteps(assets[0].name, assets[0].filename, ImageRaw, binPath,
                                 repr(TagStrings(assets[0].tags).value)), run).failure.None?
    requires FollowsPlan(assets[1..], binPath, repr, run)
    ensures FollowsPlan(assets, binPath, repr, run)
  {
    var a := assets[0];
    var tail := assets[1..];
    var steps := ImageSteps(a.name, a.filename, ImageRaw, binPath, repr(TagStrings(a.tags).value));
    var t := RunSteps(steps, run);
    assert Planned(assets, binPath, repr) == Argvs(steps) + Planned(tail, binPath, repr);
    assert AbortRule(steps, run) by { RunStepsAbortsOnFirstFailure(steps, run); }
    var rest := ConvertAll(tail, binPath, repr, run);
    ConcatRules(t.invoked, rest.invoked, Planned(tail, binPath, repr), run);
    if rest.error.Some? && rest.error.value.TagNotString? {
      var m :| 0 <= m < |tail| && FirstBadTags(tail, m, rest.error.value.asset, rest.error.value.index);
      assert FirstBadTags(assets, m + 1, rest.error.value.asset, rest.error.value.index) by { BadTagsShift(assets); }
    }
  }

  /** An image asset at the head whose tools fail ends the stage on that failure. */
  lemma ImageHeadFailed(assets: seq<Asset>, binPath: string, repr: seq<string> -> string,
                        run: seq<string> -> ToolResult)
    requires |assets| > 0 && assets[0].assetType == ImageFolder && TagStrings(assets[0].tags).Success?
    requires RunSteps(ImageSteps(assets[0].name, assets[0].filename, ImageRaw, binPath,
                                 repr(TagStrings(assets[0].tags).value)), run).failure.Some?
    ensures FollowsPlan(assets, binPath, repr, run)
  {
    var a := assets[0];
    var steps := ImageSteps(a.name, a.filename, ImageRaw, binPath, repr(TagStrings(a.tags).value));
    var t := RunSteps(steps, run);
    var c := ConvertAll(assets, binPath, repr, run);
    var plan := Planned(assets, binPath, repr);
    assert c == Conversions(t.invoked, t.echoed, [], Some(ToolFailed(a.name, t.failure.value)));
    assert plan == Argvs(steps) + Planned(assets[1..], binPath, repr);
    assert AbortRule(steps, run) by { RunStepsAbortsOnFirstFailure(steps, run); }
    assert IsPrefix(c.invoked, plan) by {
      assert plan[..|t.invoked|] == Argvs(steps)[..|t.invoked|];
    }
    assert EndsOnFailure(c.invoked, c.error.value.failure, run);
  }

  /** The stage shows exactly the packer output of the tools it launched: each packer
      launch's non-empty stdout, in launch order, and nothing of the conversion tools. */
  lemma {:induction false} ConvertAllEchoesPackerOutput(assets: seq<Asset>, binPath: string, repr: seq<string> -> string,
                                                        run: seq<string> -> ToolResult)
    ensures var c := ConvertAll(assets, binPath, repr, run);
            c.echoed == PackerOutputs(c.invoked, run)
  {
    if |assets| > 0 {
      var a := assets[0];
      ConvertAllEchoesPackerOutput(assets[1..], binPath, repr, run);
      if a.assetType == ImageFolder && TagStrings(a.tags).Success? {
        var tagsText := repr(TagStrings(a.tags).value);
        var t := RunSteps(ImageSteps(a.name, a.filename, ImageRaw, binPath, tagsText), run);
        ImageEchoesPackerOutput(a.name, a.filename, ImageRaw, binPath, tagsText, run);
        if t.failure.None? {
          PackerOutputsAppend(t.invoked, ConvertAll(assets[1..], binPath, repr, run).invoked, run);
        }
      }
    }
  }

  /** The plan of an asset had string tags and ran, all of it successfully. */
  predicate PlanRan(a: Asset, binPath: string, repr: seq<string> -> string, run: seq<string> -> ToolResult) {
    AssetPlan(a, binPath, repr).Some? && AllSucceeded(Argvs(AssetPlan(a, binPath, repr).value), run)
  }

  /** The stage stopped at asset m with error `e`: asset m is an image asset, every
      image asset before it ran its whole plan successfully, and `e` names asset m
      with either its first tag that is not a string or a tool of its plan that did
      not succeed, with that tool's result. */
  predicate StopsAt(assets: seq<Asset>, m: int, e: RunError, binPath: string, repr: seq<string> -> string,
                    run: seq<string> -> ToolResult) {
    && 0 <= m < |assets|
    && assets[m].assetType == ImageFolder
    && (forall i :: 0 <= i < m && assets[i].assetType == ImageFolder ==> PlanRan(assets[i], binPath, repr, run))
    && match e
       case TagNotString(name, index) => name == assets[m].name && TagStrings(assets[m].tags) == Failure(index)
       case ToolFailed(name, f) =>
         && name == assets[m].name
         && AssetPlan(assets[m], binPath, repr).Some?
         && f.argv in Argvs(AssetPlan(assets[m], binPath, repr).value)
         && f.result == run(f.argv)
         && !Succeeded(f.result)
       case _ => false
  }

  /** A stage that ends on an error stopped at the image asset the error names, after
      every image asset before it ran its whole plan successfully; the assets it
      converted are exactly the image assets before that one. */
  lemma {:induction false} ConvertAllStopsAtFailingAsset(assets: seq<Asset>, binPath: string, repr: seq<string> -> string,
                                                         run: seq<string> -> ToolResult)
    ensures var c := ConvertAll(assets, binPath, repr, run);
            c.error.Some? ==>
              exists m :: 0 <= m < |assets| && StopsAt(assets, m, c.error.value, binPath, repr, run)
                                            && c.converted == ImageNames(assets[..m])
  {
    if |assets| > 0 {
      var a := assets[0];
      var tail := assets[1..];
      var c := ConvertAll(assets, binPath, repr, run);
      var rest := ConvertAll(tail, binPath, repr, run);
      ConvertAllStopsAtFailingAsset(tail, binPath, repr, run);
      if a.assetType != ImageFolder {
        if c.error.Some? {
          var m :| 0 <= m < |tail| && StopsAt(tail, m, rest.error.value, binPath, repr, run)
                                   && rest.converted == ImageNames(tail[..m]);
          StopShift(assets, m, rest.error.value, binPath, repr, run);
        }
      } else if TagStrings(a.tags).Failure? {
        assert StopsAt(assets, 0, c.error.value, binPath, repr, run);
        assert assets[..0] == [];
      } else {
        var steps := ImageSteps(a.name, a.filename, ImageRaw, binPath, repr(TagStrings(a.tags).value));
        if RunSteps(steps, run).failure.Some? {
          HeadFailureStops(assets, binPath, repr, run);
          assert assets[..0] == [];
        } else {
          assert PlanRan(a, binPath, repr, run) by { RunStepsAbortsOnFirstFailure(steps, run); }
          if c.error.Some? {
            var m :| 0 <= m < |tail| && StopsAt(tail, m, rest.error.value, binPath, repr, run)
                                     && rest.converted == ImageNames(tail[..m]);
            StopShift(assets, m, rest.error.value, binPath, repr, run);
          }
        }
      }
    }
  }

  /** An asset in front that is not an image, or an image whose plan ran successfully,
      moves the stopping asset one place on and adds its name, if an image, to the
      assets converted before it. */
  lemma StopShift(assets: seq<Asset>, m: int, e: RunError, binPath: string, repr: seq<string> -> string,
                  run: seq<string> -> ToolResult)
    requires |assets| > 0
    requires assets[0].assetType == ImageFolder ==> PlanRan(assets[0], binPath, repr, run)
    requires StopsAt(assets[1..], m, e, binPath, repr, run)
    ensures StopsAt(assets, m + 1, e, binPath, repr, run)
    ensures ImageNames(assets[..m + 1])
            == (if assets[0].assetType == ImageFolder then [assets[0].name] else []) + ImageNames(assets[1..][..m])
  {
    assert assets[m + 1] == assets[1..][m];
    forall i | 1 <= i < m + 1 && assets[i].assetType == ImageFolder
      ensures PlanRan(assets[i], binPath, repr, run)
    {
      assert assets[i] == assets[1..][i - 1];
    }
    assert assets[..m + 1][0] == assets[0];
    assert assets[..m + 1][1..] == assets[1..][..m];
  }

  /** An image asset at the head whose plan fails ends the stage there, having
      converted nothing. */
  lemma HeadFailureStops(assets: seq<Asset>, binPath: string, repr: seq<string> -> string, run: seq<string> -> ToolResult)
    requires |assets| > 0 && assets[0].assetType == ImageFolder && TagStrings(assets[0].tags).Success?
    requires RunSteps(ImageSteps(assets[0].name, assets[0].filename, ImageRaw, binPath,
                                 repr(TagStrings(assets[0].tags).value)), run).failure.Some?
    ensures var c := ConvertAll(assets, binPath, repr, run);
            c.error.Some? && StopsAt(assets, 0, c.error.value, binPath, repr, run) && c.converted == []
  {
    var a := assets[0];
    var steps := ImageSteps(a.name, a.filename, ImageRaw, binPath, repr(TagStrings(a.tags).value));
    var t := RunSteps(steps, run);
    assert AbortRule(steps, run) by { RunStepsAbortsOnFirstFailure(steps, run); }
    var k := |t.invoked| - 1;
    assert Argvs(steps)[k] == t.invoked[k];
    assert t.failure.value.argv in Argvs(steps);
  }

  /** Appending a run that launched its whole plan, all of it successfully, to a run
      that keeps the stage rules, keeps them. */
  lemma ConcatRules(first: seq<seq<string>>, rest: seq<seq<string>>, planRest: seq<seq<string>>,
                    run: seq<string> -> ToolResult)
    requires AllSucceeded(first, run)
    requires IsPrefix(rest, planRest)
    requires AllButLastSucceeded(rest, run)
    ensures IsPrefix(first + rest, first + planRest)
    ensures AllButLastSucceeded(first + rest, run)
    ensures AllSucceeded(rest, run) ==> AllSucceeded(first + rest, run)
    ensures forall f :: EndsOnFailure(rest, f, run) ==> EndsOnFailure(first + rest, f, run)
  {
    assert (first + planRest)[..|first + rest|] == first + planRest[..|rest|];
    forall i | 0 <= i < |first + rest| - 1
      ensures Succeeded(run((first + rest)[i]))
    {
      if i >= |first| {
        assert (first + rest)[i] == rest[i - |first|];
      }
    }
  }

  // ---------------------------------------------------------------------------
  // The whole run for a manifest

  /** What a pack run did: the presence report, the tools launched and outputs echoed,
      the image assets converted, and the error that ended the run, if any. */
  datatype PackRun = PackRun(probes: seq<(string, bool)>, invoked: seq<seq<string>>, echoed: seq<string>,
                             converted: seq<string>, error: Option<RunError>)

  /** `main` given a manifest path: the extension gate, then validation of the parsed
      manifest against the type folders, then the presence check, then conversion.
      `scriptDir` is the directory of the script, where the packer binaries live. */
  function Pack(path: string, manifest: JValue, isFile: string -> bool, scriptDir: string,
                repr: seq<string> -> string, run: seq<string> -> ToolResult): (r: PackRun)
    ensures r.error == Some(NotJsonInput) <==> !IsJsonPath(path)
    ensures r.probes != [] ==> IsJsonPath(path) && Validate(manifest, TypeFolders).None?
    ensures r.invoked != [] ==> IsJsonPath(path) && Validate(manifest, TypeFolders).None? && AllFound(r.probes)
  {
    if !IsJsonPath(path) then PackRun([], [], [], [], Some(NotJsonInput))
    else match Decode(manifest, TypeFolders)
      case Failure(e) => PackRun([], [], [], [], Some(Invalid(e)))
      case Success(m) =>
        var probes := Report(m.assets, isFile);
        if !AllFound(probes) then PackRun(probes, [], [], [], Some(AssetsMissing))
        else
          var c := ConvertAll(m.assets, BinPath(scriptDir), repr, run);
          PackRun(probes, c.invoked, c.echoed, c.converted, c.error)
  }

  /** The input path is accepted exactly when its extension is `json` in some letter
      case: `X.JSON` passes and `X.txt` does not. */
  lemma JsonGateByExtension(stem: string, x: string, i: nat)
    requires i < |stem| && !IsDot(stem[i]) && !IsSep(stem[i])
    requires forall k :: i < k < |stem| ==> !IsSep(stem[k])
    requires Plain(x)
    ensures IsJsonPath(stem + "." + x) <==> Lower(x) == "json"
  {
    SplitExtAtLastDot(stem, x, i);
    JsonGateOfExt(stem + "." + x, x);
  }

  lemma JsonGateOfExt(path: string, x: string)
    requires SplitExt(path).1 == "." + x
    ensures IsJsonPath(path) <==> Lower(x) == "json"
  {
    assert Lower("." + x) == ".json" <==> Lower(x) == "json" by { DotJsonOfExt(x); }
  }

  lemma DotJsonOfExt(x: string)
    ensures Lower("." + x) == ".json" <==> Lower(x) == "json"
  {
    LowerDotted(x);
    DottedEq(Lower(x), "json");
    assert ".json" == "." + "json";
  }

  lemma UpperCaseJsonAccepted()
    ensures IsJsonPath("X.JSON")
  {
    assert "X" + "." + "JSON" == "X.JSON";
    SplitExtAtLastDot("X", "JSON", 0);
    LowerDotJson();
  }

  lemma LowerDotJson()
    ensures Lower(".JSON") == ".json"
  {
    assert LowerChar('.') == '.' && LowerChar('J') == 'j' && LowerChar('S') == 's';
    assert LowerChar('O') == 'o' && LowerChar('N') == 'n';
    var l := Lower(".JSON");
    assert |l| == 5 && l[0] == '.' && l[1] == 'j' && l[2] == 's' && l[3] == 'o' && l[4] == 'n';
  }

  lemma TextFileRejected()
    ensures !IsJsonPath("X.txt")
  {
    assert "X" + "." + "txt" == "X.txt";
    SplitExtAtLastDot("X", "txt", 0);
    assert |Lower(".txt")| == 4 && |".json"| == 5;
  }

  /** A file named just `.json` has no extension, so it is refused. */
  lemma BareDotJsonRejected()
    ensures !IsJsonPath(".json")
  {
    SplitExtLeadingDots("", "json");
    assert "" + "." + "json" == ".json";
    assert Lower("") == "";
  }

  /** The stages run in order and each failure ends the run before the next stage: a
      wrong extension, or a manifest that fails validation, ends it before any file is
      looked for or any tool launched; a missing raw file ends it after every file was
      looked for but before any tool is launched. Whatever happens, the output shown
      is the packer output of the tools launched. */
  lemma PackStagesInOrder(path: string, manifest: JValue, isFile: string -> bool, scriptDir: string,
                          repr: seq<string> -> string, run: seq<string> -> ToolResult)
    ensures var r := Pack(path, manifest, isFile, scriptDir, repr, run);
            && (!IsJsonPath(path) ==> r.error == Some(NotJsonInput) && r.probes == [] && r.invoked == [])
            && (IsJsonPath(path) && Validate(manifest, TypeFolders).Some? ==>
                  && r.error == Some(Invalid(Validate(manifest, TypeFolders).value))
                  && r.probes == [] && r.invoked == [])
            && (IsJsonPath(path) && Validate(manifest, TypeFolders).None? ==>
                  var assets := Decode(manifest, TypeFolders).value.assets;
                  && r.probes == Report(assets, isFile)
                  && (!AllFound(r.probes) <==> r.error == Some(AssetsMissing))
                  && (!AllFound(r.probes) ==> r.invoked == []))
            && r.echoed == PackerOutputs(r.invoked, run)
  {
    var r := Pack(path, manifest, isFile, scriptDir, repr, run);
    if IsJsonPath(path) && Validate(manifest, TypeFolders).None? {
      var m := Decode(manifest, TypeFolders).value;
      ConvertAllEchoesPackerOutput(m.assets, BinPath(scriptDir), repr, run);
    }
  }

  /** A run that completes launched, in manifest order, exactly the plans of the image
      assets, converted exactly those, and looked for every raw file first. Assets of
      the other types launch nothing. */
  lemma PackConvertsOnlyImages(path: string, manifest: JValue, isFile: string -> bool, scriptDir: string,
                               repr: seq<string> -> string, run: seq<string> -> ToolResult)
    ensures var r := Pack(path, manifest, isFile, scriptDir, repr, run);
            r.error.None? ==>
              && Accepted(manifest, TypeFolders)
              && IsJsonPath(path)
              && Decode(manifest, TypeFolders).Success?
              && var assets := Decode(manifest, TypeFolders).value.assets;
                 && |r.probes| == |assets|
                 && AllFound(r.probes)
                 && r.invoked == Planned(assets, BinPath(scriptDir), repr)
                 && AllSucceeded(r.invoked, run)
                 && r.converted == ImageNames(assets)
  {
    if Pack(path, manifest, isFile, scriptDir, repr, run).error.None? {
      ValidateAcceptsExactly(manifest, TypeFolders);
      var m := Decode(manifest, TypeFolders).value;
      ConvertAllFollowsPlan(m.assets, BinPath(scriptDir), repr, run);
    }
  }

  /** For an image asset the file the presence check looks for is exactly the raw
      file the conversion tools are given. */
  lemma ProbedFileIsConverted(a: Asset)
    requires a.assetType == ImageFolder
    ensures RawPath(a) == ImageRaw + a.filename
  {
  }

  // ---------------------------------------------------------------------------
  // --setup-file-dir

  /** The folders `--setup-file-dir` makes under `cwd`: `raw` and `inter` with one
      sub-folder per type, then `packaged`. */
  function SetupDirs(cwd: string): (dirs: seq<string>)
    ensures |dirs| == 2 * |TypeFolders| + 1
    ensures forall i :: 0 <= i < |dirs| ==> |dirs[i]| > |cwd| && dirs[i][..|cwd| + 1] == cwd + "\\"
  {
    var base := cwd + "\\";
    seq(|TypeFolders|, i requires 0 <= i < |TypeFolders| => base + RawFolder + "\\" + TypeFolders[i])
    + seq(|TypeFolders|, i requires 0 <= i < |TypeFolders| => base + InterFolder + "\\" + TypeFolders[i])
    + [base + PackagedFolder]
  }

  /** Setup makes a raw and an intermediate folder for every asset type, and the
      output folder, and nothing else. */
  lemma SetupDirsCoverTypes(cwd: string)
    ensures |SetupDirs(cwd)| == 2 * |TypeFolders| + 1
    ensures forall t :: t in TypeFolders ==>
              && cwd + "\\" + RawFolder + "\\" + t in SetupDirs(cwd)
              && cwd + "\\" + InterFolder + "\\" + t in SetupDirs(cwd)
    ensures SetupDirs(cwd)[2 * |TypeFolders|] == cwd + "\\" + PackagedFolder
  {
    var dirs := SetupDirs(cwd);
    forall t | t in TypeFolders
      ensures cwd + "\\" + RawFolder + "\\" + t in dirs
      ensures cwd + "\\" + InterFolder + "\\" + t in dirs
    {
      var i :| 0 <= i < |TypeFolders| && TypeFolders[i] == t;
      assert dirs[i] == cwd + "\\" + RawFolder + "\\" + t;
      assert dirs[|TypeFolders| + i] == cwd + "\\" + InterFolder + "\\" + t;
    }
  }

  /** The folders a setup run creates, in order: each folder that is not present when
      its turn comes. A folder made earlier in the run is present from then on, so a
      folder listed twice is made once. */
  function ToCreate(dirs: seq<string>, present: set<string>): (created: seq<string>)
    ensures forall d :: d in created <==> d in dirs && d !in present
    ensures forall i, j :: 0 <= i < j < |created| ==> created[i] != created[j]
  {
    if |dirs| == 0 then []
    else if dirs[0] in present then ToCreate(dirs[1..], present)
    else [dirs[0]] + ToCreate(dirs[1..], present + {dirs[0]})
  }

  /** A folder listed twice is made once, as `os.path.isdir` sees the folder the first
      entry made. */
  lemma RepeatedFolderMadeOnce(d: string)
    ensures ToCreate([d, d], {}) == [d]
  {
    assert [d, d][1..] == [d];
    assert ToCreate([d], {d}) == [];
    assert ToCreate([d, d], {}) == [d] + ToCreate([d], {} + {d});
  }

  /** Setup is idempotent: after one run every folder is present, and a second run
      creates nothing. */
  lemma SetupIsIdempotent(cwd: string, present: set<string>)
    ensures var after := present + set d | d in ToCreate(SetupDirs(cwd), present);
            && (forall d :: d in SetupDirs(cwd) ==> d in after)
            && ToCreate(SetupDirs(cwd), after) == []
  {
    var after := present + set d | d in ToCreate(SetupDirs(cwd), present);
    NothingToCreate(SetupDirs(cwd), after);
  }

  lemma {:induction false} NothingToCreate(dirs: seq<string>, present: set<string>)
    requires forall d :: d in dirs ==> d in present
    ensures ToCreate(dirs, present) == []
  {
    if |dirs| > 0 {
      assert dirs[0] in dirs;
      NothingToCreate(dirs[1..], present);
    }
  }
}

=== FILE: image_conversion.dfy ===
/** `convert_image` of convert_to_intermediate.py: the tag display, the choice of
    conversion tool from the file's extension, the exact argument vectors, the
    `.ktx2` path the packer reads, and the rules for aborting on a failed tool. */
module ImageConversion {
  import opened Wrappers
  import opened Json
  import opened PathText
  import opened Tools

  /** The legacy texture container; files with this extension are upgraded in place. */
  const LegacyExt := ".ktx"
  /** The target texture container; files with this extension are used as they are. */
  const TargetExt := ".ktx2"

  const UpgradeTool := "ktx2ktx2"
  const CreateTool := "ktx"
  const PackerExe := "inter_process.exe"

  /** The packer's directory: `exe_bin` next to the script. */
  function BinPath(scriptDir: string): (b: string)
    ensures |b| == |scriptDir| + 9
    ensures b[..|scriptDir| + 1] == scriptDir + "\\"
    ensures b[|scriptDir| + 1..] == "exe_bin\\"
  {
    scriptDir + "\\" + "exe_bin\\"
  }

  function UpgradeArgv(raw: string, filename: string): seq<string> {
    [UpgradeTool, "-f", raw + filename]
  }

  /** The creation tool, with its fixed encode flags, writing `root.ktx2` beside the input. */
  function CreateArgv(raw: string, filename: string, root: string): seq<string> {
    [CreateTool, "create", "--format", "R8G8B8A8_SRGB", "--assign-tf", "KHR_DF_TRANSFER_SRGB",
     "--generate-mipmap", "--encode", "basis-lz", raw + filename, raw + root + TargetExt]
  }

  /** The packer: operation `i`, the `.ktx2` file, the asset name and the tag list text. */
  function PackerArgv(binPath: string, raw: string, root: string, assetName: string, tagsText: string): seq<string> {
    [binPath + PackerExe, "i", raw + root + TargetExt, assetName, tagsText]
  }

  /** The conversion step chosen from the lower-cased extension. */
  datatype Conversion = Upgrade | Create | AlreadyTarget

  function ConversionFor(filename: string): (c: Conversion)
    ensures SplitExt(filename).1 == [] ==> c == Create
    ensures c == Upgrade ==> |SplitExt(filename).1| == 4
    ensures c == AlreadyTarget ==> |SplitExt(filename).1| == 5
  {
    var ext := Lower(SplitExt(filename).1);
    if ext == LegacyExt then Upgrade
    else if ext != TargetExt then Create
    else AlreadyTarget
  }

  /** The plan `convert_image` runs for one asset. In every branch it ends with the
      packer, whose output is echoed, reading `raw + root + ".ktx2"` where `root` is
      the file name without its extension; at most one conversion tool runs before it,
      and its output is not echoed. */
  function ImageSteps(assetName: string, filename: string, raw: string, binPath: string, tagsText: string): (steps: seq<Step>)
    ensures var root := SplitExt(filename).0;
            && 1 <= |steps| <= 2
            && steps[|steps| - 1] == Step([binPath + "inter_process.exe", "i", raw + root + ".ktx2", assetName, tagsText], true)
            && root + SplitExt(filename).1 == filename
            && (|steps| == 2 ==>
                  && !steps[0].echoStdout
                  && (steps[0].argv == UpgradeArgv(raw, filename) || steps[0].argv == CreateArgv(raw, filename, root)))
  {
    var root := SplitExt(filename).0;
    var pack := Step(PackerArgv(binPath, raw, root, assetName, tagsText), true);
    match ConversionFor(filename)
    case Upgrade => [Step(UpgradeArgv(raw, filename), false), pack]
    case Create => [Step(CreateArgv(raw, filename, root), false), pack]
    case AlreadyTarget => [pack]
  }

  // ---------------------------------------------------------------------------
  // Tags

  function Quote(s: string): string {
    "\"" + s + "\""
  }

  /** The items joined with `sep` between consecutive items, and nowhere else. */
  function JoinWith(items: seq<string>, sep: string): string {
    if |items| == 0 then ""
    else if |items| == 1 then items[0]
    else JoinWith(items[..|items| - 1], sep) + sep + items[|items| - 1]
  }

  function Quoted(tags: seq<string>): (r: seq<string>)
    ensures |r| == |tags|
    ensures forall i :: 0 <= i < |tags| ==> r[i] == Quote(tags[i])
  {
    if |tags| == 0 then [] else Quoted(tags[..|tags| - 1]) + [Quote(tags[|tags| - 1])]
  }

  /** The tag display: each tag in double quotes, separated by `, `. */
  function TagLine(tags: seq<string>): string {
    JoinWith(Quoted(tags), ", ")
  }

  /** The tags as strings, or the index of the first tag that is not a string (adding
      such a tag to the display text raises `TypeError`, which ends the run). */
  function TagStrings(tags: seq<JValue>): (r: Result<seq<string>, nat>)
    ensures r.Success? ==> |r.value| == |tags| && forall i :: 0 <= i < |tags| ==> tags[i] == JStr(r.value[i])
    ensures r.Failure? ==> r.error < |tags| && !tags[r.error].JStr? && forall i :: 0 <= i < r.error ==> tags[i].JStr?
  {
    if |tags| == 0 then Success([])
    else if !tags[0].JStr? then Failure(0)
    else match TagStrings(tags[1..])
      case Success(rest) => Success([tags[0].s] + rest)
      case Failure(k) => Failure(k + 1)
  }

  /** The display loop as the source writes it: append each quoted tag, then a
      separator unless the tag was the last one. It builds exactly the joined line,
      and stops at the first tag that is not a string. */
  method RenderTags(tags: seq<JValue>) returns (r: Result<string, nat>)
    ensures r.Failure? <==> TagStrings(tags).Failure?
    ensures r.Failure? ==> r.error == TagStrings(tags).error
    ensures r.Success? ==> r.value == TagLine(TagStrings(tags).value)
  {
    var out := "";
    var strs: seq<string> := [];
    var index := 0;
    while index < |tags|
      invariant 0 <= index <= |tags| && |strs| == index
      invariant forall i :: 0 <= i < index ==> tags[i] == JStr(strs[i])
      invariant out == TagLine(strs) + (if 0 < index < |tags| then ", " else "")
    {
      if !tags[index].JStr? {
        assert TagStrings(tags) == Failure(index) by {
          TagStringsFirstFailure(tags, index);
        }
        return Failure(index);
      }
      var t := tags[index].s;
      assert out + Quote(t) == TagLine(strs + [t]) by {
        TagLineStep(strs, t, if 0 < index then ", " else "");
      }
      out := out + Quote(t);
      strs := strs + [t];
      if index != |tags| - 1 {
        out := out + ", ";
      }
      index := index + 1;
    }
    assert out == TagLine(strs);
    assert TagStrings(tags) == Success(strs) by {
      TagStringsAllStrings(tags, strs);
    }
    return Success(out);
  }

  /** The display is empty for no tags; otherwise it opens and closes with a double
      quote, so there is no trailing separator; a further tag adds one separator and
      the quoted tag at the end. */
  lemma {:induction false} TagLineShape(tags: seq<string>, t: string)
    ensures TagLine([]) == ""
    ensures TagLine([t]) == Quote(t)
    ensures |tags| > 0 ==> TagLine(tags + [t]) == TagLine(tags) + ", " + Quote(t)
    ensures |tags| > 0 ==> |TagLine(tags)| >= 2 && TagLine(tags)[0] == '"' && TagLine(tags)[|TagLine(tags)| - 1] == '"'
  {
    if |tags| > 0 {
      assert (tags + [t])[..|tags|] == tags;
      assert Quoted(tags + [t])[..|tags|] == Quoted(tags);
      QuotedJoinEnds(Quoted(tags), ", ");
    }
  }

  /** A join of quoted items starts with the first item and ends with the last. */
  lemma {:induction false} QuotedJoinEnds(items: seq<string>, sep: string)
    requires |items| > 0
    requires forall i :: 0 <= i < |items| ==> |items[i]| >= 2 && items[i][0] == '"' && items[i][|items[i]| - 1] == '"'
    ensures |JoinWith(items, sep)| >= 2
    ensures JoinWith(items, sep)[0] == '"' && JoinWith(items, sep)[|JoinWith(items, sep)| - 1] == '"'
  {
    if |items| > 1 {
      var init := items[..|items| - 1];
      QuotedJoinEnds(init, sep);
      var j := JoinWith(init, sep);
      var last := items[|items| - 1];
      assert JoinWith(items, sep) == j + sep + last;
      assert (j + sep + last)[0] == j[0];
    }
  }

  /** One more tag extends the display by the separator owed to the previous tag
      and the quoted tag. */
  lemma TagLineStep(strs: seq<string>, t: string, sep: string)
    requires sep == if |strs| > 0 then ", " else ""
    ensures TagLine(strs) + sep + Quote(t) == TagLine(strs + [t])
  {
    TagLineShape(strs, t);
  }

  lemma TagStringsAllStrings(tags: seq<JValue>, strs: seq<string>)
    requires |strs| == |tags|
    requires forall i :: 0 <= i < |tags| ==> tags[i] == JStr(strs[i])
    ensures TagStrings(tags) == Success(strs)
  {
    assert TagStrings(tags).value == strs;
  }

  lemma TagStringsFirstFailure(tags: seq<JValue>, k: nat)
    requires k < |tags| && !tags[k].JStr?
    requires forall i :: 0 <= i < k ==> tags[i].JStr?
    ensures TagStrings(tags) == Failure(k)
  {
  }

  // ---------------------------------------------------------------------------
  // One asset, end to end

  /** What converting one image asset did: stopped at a tag that is not a string
      before launching anything, or ran its plan. */
  datatype ImageOutcome = BadTag(index: nat) | Ran(trace: Trace)

  /** `convert_image(assetName, filename, tags, raw, ...)`. `repr` stands for Python's
      `str` of a list of strings, the text the packer receives. */
  function ConvertImage(assetName: string, filename: string, tags: seq<JValue>, raw: string, binPath: string,
                        repr: seq<string> -> string, run: seq<string> -> ToolResult): (r: ImageOutcome)
    ensures r.BadTag? ==> r.index < |tags| && !tags[r.index].JStr? && forall i :: 0 <= i < r.index ==> tags[i].JStr?
    ensures r.Ran? ==>
              && (forall i :: 0 <= i < |tags| ==> tags[i].JStr?)
              && 1 <= |r.trace.invoked| <= 2
              && r.trace.invoked[0] == ImageSteps(assetName, filename, raw, binPath, repr(TagStrings(tags).value))[0].argv
    ensures r.Ran? ==> r.trace == RunSteps(ImageSteps(assetName, filename, raw, binPath, repr(TagStrings(tags).value)), run)
  {
    match TagStrings(tags)
    case Failure(k) => BadTag(k)
    case Success(strs) => Ran(RunSteps(ImageSteps(assetName, filename, raw, binPath, repr(strs)), run))
  }

  // ---------------------------------------------------------------------------
  // Properties of the plan

  lemma LowerAppend(a: string, b: string)
    ensures Lower(a + b) == Lower(a) + Lower(b)
  {
    assert forall i :: 0 <= i < |a + b| ==> Lower(a + b)[i] == (Lower(a) + Lower(b))[i];
  }

  /** The conversion chosen for `stem.x`, where `x` holds no dot and `stem` a non-dot
      character in its last component, depends only on `x` in lower case. */
  lemma ConversionOfDottedName(stem: string, x: string, i: nat)
    requires i < |stem| && !IsDot(stem[i]) && !IsSep(stem[i])
    requires forall k :: i < k < |stem| ==> !IsSep(stem[k])
    requires Plain(x)
    ensures SplitExt(stem + "." + x) == (stem, "." + x)
    ensures ConversionFor(stem + "." + x) ==
              if Lower(x) == "ktx" then Upgrade else if Lower(x) == "ktx2" then AlreadyTarget else Create
  {
    SplitExtAtLastDot(stem, x, i);
    ConversionOfExt(stem + "." + x, x);
  }

  /** The conversion depends only on the extension, in lower case. */
  lemma ConversionOfExt(filename: string, x: string)
    requires SplitExt(filename).1 == "." + x
    ensures ConversionFor(filename) ==
              if Lower(x) == "ktx" then Upgrade else if Lower(x) == "ktx2" then AlreadyTarget else Create
  {
    LowerDotted(x);
    assert LegacyExt == "." + "ktx" && TargetExt == "." + "ktx2";
    DottedEq(Lower(x), "ktx");
    DottedEq(Lower(x), "ktx2");
  }

  /** Lower-casing leaves a leading dot in place. */
  lemma LowerDotted(x: string)
    ensures Lower("." + x) == "." + Lower(x)
  {
    LowerAppend(".", x);
    assert Lower(".") == ".";
  }

  /** Two dotted names are equal exactly when what follows the dots is. */
  lemma DottedEq(y: string, z: string)
    ensures ("." + y == "." + z) <==> (y == z)
  {
    if "." + y == "." + z {
      assert ("." + y)[1..] == y && ("." + z)[1..] == z;
    }
  }

  /** A legacy `.ktx` file, in any letter case, runs exactly the upgrade tool on the raw
      file and then the packer on `stem.ktx2`; the creation tool is not run. */
  lemma LegacyFileIsUpgraded(assetName: string, stem: string, x: string, i: nat, raw: string, binPath: string, tagsText: string)
    requires i < |stem| && !IsDot(stem[i]) && !IsSep(stem[i])
    requires forall k :: i < k < |stem| ==> !IsSep(stem[k])
    requires Plain(x) && Lower(x) == "ktx"
    ensures Argvs(ImageSteps(assetName, stem + "." + x, raw, binPath, tagsText)) ==
              [["ktx2ktx2", "-f", raw + stem + "." + x],
               [binPath + "inter_process.exe", "i", raw + stem + ".ktx2", assetName, tagsText]]
  {
    ConversionOfDottedName(stem, x, i);
    UpgradeSteps(assetName, stem, x, raw, binPath, tagsText);
  }

  lemma UpgradeSteps(assetName: string, stem: string, x: string, raw: string, binPath: string, tagsText: string)
    requires ConversionFor(stem + "." + x) == Upgrade && SplitExt(stem + "." + x).0 == stem
    ensures Argvs(ImageSteps(assetName, stem + "." + x, raw, binPath, tagsText)) ==
              [["ktx2ktx2", "-f", raw + stem + "." + x],
               [binPath + "inter_process.exe", "i", raw + stem + ".ktx2", assetName, tagsText]]
  {
    var filename := stem + "." + x;
    var steps := ImageSteps(assetName, filename, raw, binPath, tagsText);
    assert Argvs(steps) == [UpgradeArgv(raw, filename), PackerArgv(binPath, raw, stem, assetName, tagsText)] by {
      assert steps == [Step(UpgradeArgv(raw, filename), false), Step(PackerArgv(binPath, raw, stem, assetName, tagsText), true)];
    }
    assert raw + filename == raw + stem + "." + x;
  }

  /** Any other extension that is not `.ktx2` runs exactly the creation tool, with its
      fixed flags, from the raw file to `stem.ktx2`, then the packer on that file. */
  lemma OtherFileIsCreated(assetName: string, stem: string, x: string, i: nat, raw: string, binPath: string, tagsText: string)
    requires i < |stem| && !IsDot(stem[i]) && !IsSep(stem[i])
    requires forall k :: i < k < |stem| ==> !IsSep(stem[k])
    requires Plain(x) && Lower(x) != "ktx" && Lower(x) != "ktx2"
    ensures Argvs(ImageSteps(assetName, stem + "." + x, raw, binPath, tagsText)) ==
              [["ktx", "create", "--format", "R8G8B8A8_SRGB", "--assign-tf", "KHR_DF_TRANSFER_SRGB",
                "--generate-mipmap", "--encode", "basis-lz", raw + stem + "." + x, raw + stem + ".ktx2"],
               [binPath + "inter_process.exe", "i", raw + stem + ".ktx2", assetName, tagsText]]
  {
    ConversionOfDottedName(stem, x, i);
    CreateSteps(assetName, stem, x, raw, binPath, tagsText);
  }

  lemma CreateSteps(assetName: string, stem: string, x: string, raw: string, binPath: string, tagsText: string)
    requires ConversionFor(stem + "." + x) == Create && SplitExt(stem + "." + x).0 == stem
    ensures Argvs(ImageSteps(assetName, stem + "." + x, raw, binPath, tagsText)) ==
              [["ktx", "create", "--format", "R8G8B8A8_SRGB", "--assign-tf", "KHR_DF_TRANSFER_SRGB",
                "--generate-mipmap", "--encode", "basis-lz", raw + stem + "." + x, raw + stem + ".ktx2"],
               [binPath + "inter_process.exe", "i", raw + stem + ".ktx2", assetName, tagsText]]
  {
    var filename := stem + "." + x;
    var steps := ImageSteps(assetName, filename, raw, binPath, tagsText);
    assert Argvs(steps) == [CreateArgv(raw, filename, stem), PackerArgv(binPath, raw, stem, assetName, tagsText)] by {
      assert steps == [Step(CreateArgv(raw, filename, stem), false), Step(PackerArgv(binPath, raw, stem, assetName, tagsText), true)];
    }
    CreateArgvOfDotted(raw, stem, x);
  }

  /** The creation command for `stem.x`, spelled out. */
  lemma CreateArgvOfDotted(raw: string, stem: string, x: string)
    ensures CreateArgv(raw, stem + "." + x, stem) ==
              ["ktx", "create", "--format", "R8G8B8A8_SRGB", "--assign-tf", "KHR_DF_TRANSFER_SRGB",
               "--generate-mipmap", "--encode", "basis-lz", raw + stem + "." + x, raw + stem + ".ktx2"]
  {
    assert raw + (stem + "." + x) == raw + stem + "." + x;
  }

  /** A `.ktx2` file, in any letter case, runs no conversion tool: only the packer. */
  lemma TargetFileIsPackedAsIs(assetName: string, stem: string, x: string, i: nat, raw: string, binPath: string, tagsText: string)
    requires i < |stem| && !IsDot(stem[i]) && !IsSep(stem[i])
    requires forall k :: i < k < |stem| ==> !IsSep(stem[k])
    requires Plain(x) && Lower(x) == "ktx2"
    ensures Argvs(ImageSteps(assetName, stem + "." + x, raw, binPath, tagsText)) ==
              [[binPath + "inter_process.exe", "i", raw + stem + ".ktx2", assetName, tagsText]]
  {
    ConversionOfDottedName(stem, x, i);
  }

  /** A name with no extension (no dot at all, or only leading dots such as `.ktx`) is
      sent to the creation tool, and the whole name becomes the root of the output. */
  lemma ExtensionlessFileIsCreated(assetName: string, filename: string, raw: string, binPath: string, tagsText: string)
    requires SplitExt(filename).1 == ""
    ensures Argvs(ImageSteps(assetName, filename, raw, binPath, tagsText)) ==
              [["ktx", "create", "--format", "R8G8B8A8_SRGB", "--assign-tf", "KHR_DF_TRANSFER_SRGB",
                "--generate-mipmap", "--encode", "basis-lz", raw + filename, raw + filename + ".ktx2"],
               [binPath + "inter_process.exe", "i", raw + filename + ".ktx2", assetName, tagsText]]
  {
    var steps := ImageSteps(assetName, filename, raw, binPath, tagsText);
    assert SplitExt(filename).0 == filename;
    assert ConversionFor(filename) == Create by { assert Lower("") == ""; }
    assert Argvs(steps) == [CreateArgv(raw, filename, filename), PackerArgv(binPath, raw, filename, assetName, tagsText)] by {
      assert steps == [Step(CreateArgv(raw, filename, filename), false),
                       Step(PackerArgv(binPath, raw, filename, assetName, tagsText), true)];
    }
  }

  /** The abort rules of one image asset. A failing conversion tool stops the asset
      before the packer is launched, and nothing is echoed. Otherwise the packer runs;
      its non-empty stdout is echoed whatever its exit status, and the asset fails
      exactly when the packer does not exit with 0. */
  lemma ImageRunRules(assetName: string, filename: string, raw: string, binPath: string, tagsText: string,
                      run: seq<string> -> ToolResult)
    ensures var steps := ImageSteps(assetName, filename, raw, binPath, tagsText);
            var t := RunSteps(steps, run);
            var pack := steps[|steps| - 1].argv;
            && (|steps| == 2 && !Succeeded(run(steps[0].argv)) ==>
                  && t.invoked == [steps[0].argv]
                  && t.echoed == []
                  && t.failure == Some(ToolFailure(steps[0].argv, run(steps[0].argv))))
            && (|steps| == 1 || Succeeded(run(steps[0].argv)) ==>
                  && t.invoked == Argvs(steps)
                  && t.echoed == (if run(pack).Exited? && |run(pack).stdout| > 0 then [run(pack).stdout] else [])
                  && (t.failure.None? <==> Succeeded(run(pack))))
  {
    var steps := ImageSteps(assetName, filename, raw, binPath, tagsText);
    if |steps| == 2 {
      assert steps[1..] == [steps[1]];
      assert RunSteps(steps[1..][1..], run) == Trace([], [], None);
    } else {
      assert RunSteps(steps[1..], run) == Trace([], [], None);
    }
  }

  // ---------------------------------------------------------------------------
  // What the user sees of the tools' output

  /** The invocation launches the packer: its program is `inter_process.exe`. */
  predicate IsPackerArgv(argv: seq<string>) {
    && |argv| > 0
    && |PackerExe| <= |argv[0]|
    && argv[0][|argv[0]| - |PackerExe|..] == PackerExe
  }

  /** The output shown for a sequence of launches: the non-empty standard output of
      each packer launch, in order, whatever its exit status. The conversion tools'
      output is captured and never shown. */
  function PackerOutputs(invoked: seq<seq<string>>, run: seq<string> -> ToolResult): seq<string> {
    if |invoked| == 0 then []
    else
      var r := run(invoked[0]);
      (if IsPackerArgv(invoked[0]) && r.Exited? && |r.stdout| > 0 then [r.stdout] else [])
        + PackerOutputs(invoked[1..], run)
  }

  lemma {:induction false} PackerOutputsAppend(a: seq<seq<string>>, b: seq<seq<string>>, run: seq<string> -> ToolResult)
    ensures PackerOutputs(a + b, run) == PackerOutputs(a, run) + PackerOutputs(b, run)
  {
    if |a| > 0 {
      assert (a + b)[0] == a[0] && (a + b)[1..] == a[1..] + b;
      PackerOutputsAppend(a[1..], b, run);
    } else {
      assert a + b == b;
    }
  }

  /** The steps whose output is echoed are exactly the packer launches. */
  predicate EchoesOnlyPacker(steps: seq<Step>) {
    forall i :: 0 <= i < |steps| ==> (steps[i].echoStdout <==> IsPackerArgv(steps[i].argv))
  }

  /** A plan whose echoed steps are exactly its packer launches echoes exactly the
      packer output of what it launched. */
  lemma {:induction false} EchoedArePackerOutputs(steps: seq<Step>, run: seq<string> -> ToolResult)
    requires EchoesOnlyPacker(steps)
    ensures RunSteps(steps, run).echoed == PackerOutputs(RunSteps(steps, run).invoked, run)
  {
    if |steps| > 0 {
      var s := steps[0];
      assert s.echoStdout <==> IsPackerArgv(s.argv);
      assert EchoesOnlyPacker(steps[1..]) by {
        forall i | 0 <= i < |steps[1..]|
          ensures steps[1..][i].echoStdout <==> IsPackerArgv(steps[1..][i].argv)
        {
          assert steps[1..][i] == steps[i + 1];
        }
      }
      EchoedArePackerOutputs(steps[1..], run);
      var rest := RunSteps(steps[1..], run);
      assert ([s.argv] + rest.invoked)[1..] == rest.invoked;
      assert [s.argv][1..] == [];
    }
  }

  /** In an asset's plan only the packer's output is echoed. */
  lemma ImageStepsEchoOnlyPacker(assetName: string, filename: string, raw: string, binPath: string, tagsText: string)
    ensures EchoesOnlyPacker(ImageSteps(assetName, filename, raw, binPath, tagsText))
  {
    var steps := ImageSteps(assetName, filename, raw, binPath, tagsText);
    var root := SplitExt(filename).0;
    var pack := PackerArgv(binPath, raw, root, assetName, tagsText);
    PackerArgvIsPacker(binPath, raw, root, assetName, tagsText);
    match ConversionFor(filename)
    case Upgrade =>
      assert steps == [Step(UpgradeArgv(raw, filename), false), Step(pack, true)];
      ConversionThenPacker(UpgradeArgv(raw, filename), pack);
    case Create =>
      assert steps == [Step(CreateArgv(raw, filename, root), false), Step(pack, true)];
      ConversionThenPacker(CreateArgv(raw, filename, root), pack);
    case AlreadyTarget =>
      assert steps == [Step(pack, true)];
  }

  /** A conversion tool, whose program name is shorter than the packer's, then the packer. */
  lemma ConversionThenPacker(conv: seq<string>, pack: seq<string>)
    requires |conv| > 0 && |conv[0]| < |PackerExe|
    requires IsPackerArgv(pack)
    ensures EchoesOnlyPacker([Step(conv, false), Step(pack, true)])
  {
  }

  lemma PackerArgvIsPacker(binPath: string, raw: string, root: string, assetName: string, tagsText: string)
    ensures IsPackerArgv(PackerArgv(binPath, raw, root, assetName, tagsText))
  {
    var exe := binPath + PackerExe;
    assert exe[|exe| - |PackerExe|..] == PackerExe;
  }

  /** What one asset shows of its tools' output: the packer's non-empty stdout, if the
      packer was launched, and nothing else. */
  lemma ImageEchoesPackerOutput(assetName: string, filename: string, raw: string, binPath: string, tagsText: string,
                                run: seq<string> -> ToolResult)
    ensures var t := RunSteps(ImageSteps(assetName, filename, raw, binPath, tagsText), run);
            t.echoed == PackerOutputs(t.invoked, run)
  {
    ImageStepsEchoOnlyPacker(assetName, filename, raw, binPath, tagsText);
    EchoedArePackerOutputs(ImageSteps(assetName, filename, raw, binPath, tagsText), run);
  }
}

=== FILE: json.dfy ===
/** The already-parsed JSON value the pipeline validates: what `json.loads` returns. */
module Json {
  import opened Wrappers

  /** A parsed JSON value. An object keeps its members in insertion order, which is
      the order in which Python's `dict` iterates them. Only the kind of a number
      matters to the pipeline, so numbers are kept as reals. */
  datatype JValue =
    | JNull
    | JBool(b: bool)
    | JNum(n: real)
    | JStr(s: string)
    | JList(items: seq<JValue>)
    | JObj(fields: seq<(string, JValue)>)

  /** The exact runtime type `type(v)` of a parsed value. */
  datatype PyType = NoneType | Bool | Number | Str | List | Dict

  function TypeOf(v: JValue): PyType {
    match v
    case JNull => NoneType
    case JBool(_) => Bool
    case JNum(_) => Number
    case JStr(_) => Str
    case JList(_) => List
    case JObj(_) => Dict
  }

  /** `key in d.keys()` and `d[key]` together: the value stored under `key`, if any. */
  function Lookup(fields: seq<(string, JValue)>, key: string): Option<JValue> {
    if |fields| == 0 then None
    else if fields[0].0 == key then Some(fields[0].1)
    else Lookup(fields[1..], key)
  }

  /** A key is found exactly when some member carries it, and what is found is the
      value of the first such member. */
  lemma {:induction false} LookupFindsFirst(fields: seq<(string, JValue)>, key: string)
    ensures Lookup(fields, key).None? <==> forall i :: 0 <= i < |fields| ==> fields[i].0 != key
    ensures Lookup(fields, key).Some? ==>
              exists k :: 0 <= k < |fields| && fields[k] == (key, Lookup(fields, key).value)
                && forall i :: 0 <= i < k ==> fields[i].0 != key
  {
    if |fields| > 0 && fields[0].0 != key {
      var tail := fields[1..];
      LookupFindsFirst(tail, key);
      if Lookup(tail, key).Some? {
        var k :| 0 <= k < |tail| && tail[k] == (key, Lookup(tail, key).value)
                 && forall i :: 0 <= i < k ==> tail[i].0 != key;
        assert fields[k + 1] == tail[k];
        forall i | 0 <= i < k + 1
          ensures fields[i].0 != key
        {
          if i > 0 {
            assert fields[i] == tail[i - 1];
          }
        }
      } else {
        forall i | 0 <= i < |fields|
          ensures fields[i].0 != key
        {
          if i > 0 {
            assert fields[i] == tail[i - 1];
          }
        }
      }
    }
  }

  /** Members appended after the existing ones never hide a key already present, and
      never supply a key they do not carry. */
  lemma {:induction false} LookupAppend(fields: seq<(string, JValue)>, extra: seq<(string, JValue)>, key: string)
    ensures Lookup(fields, key).Some? ==> Lookup(fields + extra, key) == Lookup(fields, key)
    ensures (forall i :: 0 <= i < |extra| ==> extra[i].0 != key) ==> Lookup(fields + extra, key) == Lookup(fields, key)
  {
    if |fields| == 0 {
      assert fields + extra == extra;
      LookupFindsFirst(extra, key);
    } else {
      assert (fields + extra)[1..] == fields[1..] + extra;
      if fields[0].0 != key {
        LookupAppend(fields[1..], extra, key);
      }
    }
  }
}

=== FILE: manifest.dfy ===
/** The manifest validator of pack_loam_assets.py (`verify_json_contents` and its two
    field checks), written as a decoder from the parsed JSON value to a typed manifest.
    Every check is fail-fast: the first failing check, in source order, is the error. */
module Manifest {
  import opened Wrappers
  import opened Json

  /** Asset names longer than this are refused. */
  const MaxNameLength: nat := 32

  /** The asset types accepted by the driver (its type folder list), in source order. */
  const TypeFolders: seq<string> := ["image", "audio", "video", "json", "font"]

  /** The three required top-level members, in the order they are checked. */
  datatype BaseField = IsMod | GameCode | Assets

  /** The three required members of each asset, in the order they are checked. */
  datatype AssetField = TypeField | FilenameField | TagsField

  function BaseKey(f: BaseField): string {
    match f
    case IsMod => "is_mod"
    case GameCode => "game_code"
    case Assets => "assets"
  }

  function BaseType(f: BaseField): PyType {
    match f
    case IsMod => Bool
    case GameCode => Str
    case Assets => Dict
  }


  function AssetKey(f: AssetField): string {
    match f
    case TypeField => "type"
    case FilenameField => "filename"
    case TagsField => "tags"
  }

  function AssetType(f: AssetField): PyType {
    match f
    case TypeField => Str
    case FilenameField => Str
    case TagsField => List
  }

  /** Why the run stops. The message text is not modelled, only the failing check.
      For a mistyped field the source raises `TypeError` while building its message
      (see `BaseFieldAsWritten`); the model reports the intended error, which names
      the type found. */
  datatype ValidationError =
    | RootNotDict
    | MissingBaseField(field: BaseField)
    | WrongBaseFieldType(field: BaseField, found: PyType)
    | NoAssets
    | NameTooLong(asset: string)
    | AssetNotDict(asset: string)
    | MissingAssetField(asset: string, afield: AssetField)
    | WrongAssetFieldType(asset: string, afield: AssetField, found: PyType)
    | InvalidAssetType(asset: string, assetType: string)

  /** One requested asset, as the driver reads it back out of a validated manifest.
      Tags keep whatever values the list held: only the list itself is type-checked. */
  datatype Asset = Asset(name: string, assetType: string, filename: string, tags: seq<JValue>)

  datatype Manifest = Manifest(isMod: bool, gameCode: string, assets: seq<Asset>)

  /** True when `key` is present in `fields` with exactly the runtime type `t`. */
  predicate HasTyped(fields: seq<(string, JValue)>, key: string, t: PyType) {
    Lookup(fields, key).Some? && TypeOf(Lookup(fields, key).value) == t
  }

  /** `check_for_valid_base_json_field`: presence, then exact type. */
  function CheckBaseField(fields: seq<(string, JValue)>, f: BaseField): (r: Result<JValue, ValidationError>)
    ensures r.Success? <==> HasTyped(fields, BaseKey(f), BaseType(f))
    ensures r.Success? ==> Lookup(fields, BaseKey(f)) == Some(r.value)
    ensures r.Failure? && Lookup(fields, BaseKey(f)).None? ==> r.error == MissingBaseField(f)
    ensures r.Failure? && Lookup(fields, BaseKey(f)).Some? ==>
              r.error == WrongBaseFieldType(f, TypeOf(Lookup(fields, BaseKey(f)).value))
    ensures r.Failure? ==> !IsAssetError(r.error)
  {
    match Lookup(fields, BaseKey(f))
    case None => Failure(MissingBaseField(f))
    case Some(v) =>
      if TypeOf(v) != BaseType(f) then Failure(WrongBaseFieldType(f, TypeOf(v))) else Success(v)
  }

  /** `check_for_valid_asset_json_field`: presence, then exact type. */
  function CheckAssetField(name: string, fields: seq<(string, JValue)>, f: AssetField): (r: Result<JValue, ValidationError>)
    ensures r.Success? <==> HasTyped(fields, AssetKey(f), AssetType(f))
    ensures r.Success? ==> Lookup(fields, AssetKey(f)) == Some(r.value)
    ensures r.Failure? && Lookup(fields, AssetKey(f)).None? ==> r.error == MissingAssetField(name, f)
    ensures r.Failure? && Lookup(fields, AssetKey(f)).Some? ==>
              r.error == WrongAssetFieldType(name, f, TypeOf(Lookup(fields, AssetKey(f)).value))
  {
    match Lookup(fields, AssetKey(f))
    case None => Failure(MissingAssetField(name, f))
    case Some(v) =>
      if TypeOf(v) != AssetType(f) then Failure(WrongAssetFieldType(name, f, TypeOf(v))) else Success(v)
  }

  /** The per-asset checks of the validation loop, in source order: name length,
      object-ness, `type`, membership of `type` in the valid types, `filename`, `tags`. */
  function DecodeAsset(name: string, v: JValue, validTypes: seq<string>): (r: Result<Asset, ValidationError>)
    ensures r.Success? ==>
              && v.JObj?
              && r.value.name == name
              && r.value.assetType in validTypes
              && Lookup(v.fields, "type") == Some(JStr(r.value.assetType))
              && Lookup(v.fields, "filename") == Some(JStr(r.value.filename))
              && Lookup(v.fields, "tags") == Some(JList(r.value.tags))
    ensures r.Failure? ==> IsAssetError(r.error) && r.error.asset == name
  {
    if |name| > MaxNameLength then Failure(NameTooLong(name))
    else if !v.JObj? then Failure(AssetNotDict(name))
    else
      var t :- CheckAssetField(name, v.fields, TypeField);
      if t.s !in validTypes then Failure(InvalidAssetType(name, t.s))
      else
        var f :- CheckAssetField(name, v.fields, FilenameField);
        var g :- CheckAssetField(name, v.fields, TagsField);
        Success(Asset(name, t.s, f.s, g.items))
  }

  /** The validation loop over `assets.items()`, stopping at the first bad asset. It
      accepts exactly when every entry is acceptable, and any error it reports is
      about one asset. */
  function DecodeAssets(entries: seq<(string, JValue)>, validTypes: seq<string>): (r: Result<seq<Asset>, ValidationError>)
    ensures r.Success? <==> forall i :: 0 <= i < |entries| ==> AssetOk(entries[i].0, entries[i].1, validTypes)
    ensures r.Failure? ==> IsAssetError(r.error)
  {
    if |entries| == 0 then Success([])
    else
      DecodeAssetOk(entries[0].0, entries[0].1, validTypes);
      assert forall i :: 0 <= i < |entries| - 1 ==> entries[1..][i] == entries[i + 1];
      var a :- DecodeAsset(entries[0].0, entries[0].1, validTypes);
      var rest :- DecodeAssets(entries[1..], validTypes);
      Success([a] + rest)
  }

  /** `assets` holds one decoded asset per entry, in the entries' order. */
  predicate DecodedInOrder(entries: seq<(string, JValue)>, validTypes: seq<string>, assets: seq<Asset>) {
    && |assets| == |entries|
    && forall i :: 0 <= i < |entries| ==> DecodeAsset(entries[i].0, entries[i].1, validTypes) == Success(assets[i])
  }

  /** The asset stage of `verify_json_contents`: an empty asset object is refused, then
      every entry is checked in order. The assets come out in manifest order, and an
      asset error is that of the first failing entry. */
  function DecodeAssetStage(entries: seq<(string, JValue)>, validTypes: seq<string>): (r: Result<seq<Asset>, ValidationError>)
    ensures r == Failure(NoAssets) <==> |entries| == 0
    ensures r.Failure? ==> r.error == NoAssets || IsAssetError(r.error)
    ensures r.Success? ==> DecodedInOrder(entries, validTypes, r.value)
    ensures r.Failure? && IsAssetError(r.error) ==> DecodeAssets(entries, validTypes) == Failure(r.error)
  {
    if |entries| == 0 then Failure(NoAssets)
    else
      match DecodeAssets(entries, validTypes)
      case Failure(e) => Failure(e)
      case Success(list) =>
        DecodeAssetsInOrder(entries, validTypes);
        Success(list)
  }

  /** `verify_json_contents` followed by the driver's reads of the validated value. */
  function Decode(j: JValue, validTypes: seq<string>): (r: Result<Manifest, ValidationError>)
    ensures r == Failure(RootNotDict) <==> !j.JObj?
    ensures r.Success? ==>
              && j.JObj?
              && HasTyped(j.fields, "is_mod", Bool)
              && HasTyped(j.fields, "game_code", Str)
              && HasTyped(j.fields, "assets", Dict)
              && r.value.isMod == Lookup(j.fields, "is_mod").value.b
              && r.value.gameCode == Lookup(j.fields, "game_code").value.s
              && |r.value.assets| == |Lookup(j.fields, "assets").value.fields| > 0
    ensures r.Success? ==> DecodedInOrder(Lookup(j.fields, "assets").value.fields, validTypes, r.value.assets)
    ensures r.Failure? && IsAssetError(r.error) ==>
              && j.JObj?
              && HasTyped(j.fields, "is_mod", Bool)
              && HasTyped(j.fields, "game_code", Str)
              && HasTyped(j.fields, "assets", Dict)
              && DecodeAssets(Lookup(j.fields, "assets").value.fields, validTypes) == Failure(r.error)
  {
    if !j.JObj? then Failure(RootNotDict)
    else
      var isMod :- CheckBaseField(j.fields, IsMod);
      var gameCode :- CheckBaseField(j.fields, GameCode);
      var assets :- CheckBaseField(j.fields, Assets);
      var list :- DecodeAssetStage(assets.fields, validTypes);
      Success(Manifest(isMod.b, gameCode.s, list))
  }

  /** The validator proper: the first failing check, or nothing when the manifest passes. */
  function Validate(j: JValue, validTypes: seq<string>): (r: Option<ValidationError>)
    ensures r == Some(RootNotDict) <==> !j.JObj?
    ensures r.None? ==>
              && j.JObj?
              && HasTyped(j.fields, "is_mod", Bool)
              && HasTyped(j.fields, "game_code", Str)
              && HasTyped(j.fields, "assets", Dict)
              && |Lookup(j.fields, "assets").value.fields| > 0
    ensures r.Some? && IsAssetError(r.value) ==>
              && j.JObj?
              && HasTyped(j.fields, "is_mod", Bool)
              && HasTyped(j.fields, "game_code", Str)
              && HasTyped(j.fields, "assets", Dict)
              && exists k :: FirstFailingEntry(Lookup(j.fields, "assets").value.fields, validTypes, k, r.value)
  {
    match Decode(j, validTypes)
    case Failure(e) =>
      if IsAssetError(e) then
        DecodeAssetsFirstFailure(Lookup(j.fields, "assets").value.fields, validTypes);
        Some(e)
      else Some(e)
    case Success(_) => None
  }

  // ---------------------------------------------------------------------------
  // Declarative description of an acceptable manifest.

  /** An asset entry that passes every per-asset check. */
  predicate AssetOk(name: string, v: JValue, validTypes: seq<string>) {
    && |name| <= MaxNameLength
    && v.JObj?
    && HasTyped(v.fields, "type", Str)
    && Lookup(v.fields, "type").value.s in validTypes
    && HasTyped(v.fields, "filename", Str)
    && HasTyped(v.fields, "tags", List)
  }

  /** A manifest that passes every check: the three base members with their exact
      types, a non-empty asset object, and every asset acceptable. Nothing else is
      looked at: not the content of `game_code`, not any extra member. */
  predicate Accepted(j: JValue, validTypes: seq<string>) {
    && j.JObj?
    && HasTyped(j.fields, "is_mod", Bool)
    && HasTyped(j.fields, "game_code", Str)
    && HasTyped(j.fields, "assets", Dict)
    && var entries := Lookup(j.fields, "assets").value.fields;
       && |entries| > 0
       && forall i :: 0 <= i < |entries| ==> AssetOk(entries[i].0, entries[i].1, validTypes)
  }

  /** True when every base member checked before `f` is present with its type. */
  predicate PassedBefore(fields: seq<(string, JValue)>, f: BaseField) {
    match f
    case IsMod => true
    case GameCode => HasTyped(fields, "is_mod", Bool)
    case Assets => HasTyped(fields, "is_mod", Bool) && HasTyped(fields, "game_code", Str)
  }

  lemma DecodeAssetOk(name: string, v: JValue, validTypes: seq<string>)
    ensures DecodeAsset(name, v, validTypes).Success? <==> AssetOk(name, v, validTypes)
  {
  }

  /** An accepted asset object yields one asset per entry, in manifest order. */
  lemma {:induction false} DecodeAssetsInOrder(entries: seq<(string, JValue)>, validTypes: seq<string>)
    requires DecodeAssets(entries, validTypes).Success?
    ensures |DecodeAssets(entries, validTypes).value| == |entries|
    ensures forall i :: 0 <= i < |entries| ==>
              DecodeAsset(entries[i].0, entries[i].1, validTypes) == Success(DecodeAssets(entries, validTypes).value[i])
  {
    if |entries| > 0 {
      var tail := entries[1..];
      DecodeAssetsInOrder(tail, validTypes);
      var list := DecodeAssets(entries, validTypes).value;
      var rest := DecodeAssets(tail, validTypes).value;
      assert list == [DecodeAsset(entries[0].0, entries[0].1, validTypes).value] + rest;
      forall i | 0 < i < |entries|
        ensures DecodeAsset(entries[i].0, entries[i].1, validTypes) == Success(list[i])
      {
        assert tail[i - 1] == entries[i];
      }
    }
  }

  /** Entry k is the first entry of the asset loop to fail, and it fails with error e. */
  predicate FirstFailingEntry(entries: seq<(string, JValue)>, validTypes: seq<string>, k: int, e: ValidationError) {
    && 0 <= k < |entries|
    && (forall i :: 0 <= i < k ==> AssetOk(entries[i].0, entries[i].1, validTypes))
    && DecodeAsset(entries[k].0, entries[k].1, validTypes) == Failure(e)
  }

  /** When the asset loop fails, the error is that of the first failing entry: every
      entry before it passed, so assets are checked in manifest order. */
  lemma {:induction false} DecodeAssetsFirstFailure(entries: seq<(string, JValue)>, validTypes: seq<string>)
    requires DecodeAssets(entries, validTypes).Failure?
    ensures exists k :: FirstFailingEntry(entries, validTypes, k, DecodeAssets(entries, validTypes).error)
  {
    var e := DecodeAssets(entries, validTypes).error;
    DecodeAssetOk(entries[0].0, entries[0].1, validTypes);
    if DecodeAsset(entries[0].0, entries[0].1, validTypes).Failure? {
      assert FirstFailingEntry(entries, validTypes, 0, e);
    } else {
      var tail := entries[1..];
      DecodeAssetsFirstFailure(tail, validTypes);
      var k :| FirstFailingEntry(tail, validTypes, k, e);
      assert entries[k + 1] == tail[k];
      forall i | 0 <= i < k + 1
        ensures AssetOk(entries[i].0, entries[i].1, validTypes)
      {
        if i > 0 {
          assert entries[i] == tail[i - 1];
        }
      }
      assert FirstFailingEntry(entries, validTypes, k + 1, e);
    }
  }

  /** Errors that a single asset entry can raise. */
  predicate IsAssetError(e: ValidationError) {
    e.NameTooLong? || e.AssetNotDict? || e.MissingAssetField? || e.WrongAssetFieldType? || e.InvalidAssetType?
  }

  /** A manifest is accepted exactly when it passes every listed check. */
  lemma ValidateAcceptsExactly(j: JValue, validTypes: seq<string>)
    ensures Validate(j, validTypes).None? <==> Accepted(j, validTypes)
  {
    if j.JObj? && HasTyped(j.fields, "is_mod", Bool) && HasTyped(j.fields, "game_code", Str)
       && HasTyped(j.fields, "assets", Dict) {
    }
  }

  /** The base members are checked in the order `is_mod`, `game_code`, `assets`: the
      missing key reported is the first one missing, and only once all keys before it
      are present with their right types. */
  lemma ValidateReportsFirstMissingBase(j: JValue, validTypes: seq<string>, f: BaseField)
    ensures Validate(j, validTypes) == Some(MissingBaseField(f)) <==>
              && j.JObj?
              && Lookup(j.fields, BaseKey(f)).None?
              && PassedBefore(j.fields, f)
  {
    if j.JObj? {
      BaseStage(j, validTypes);
      match f
      case IsMod =>
      case GameCode =>
      case Assets =>
    }
  }

  /** The three base members are checked in order and the first failure is the
      result; once all three pass, no later error concerns a base member. */
  lemma BaseStage(j: JValue, validTypes: seq<string>)
    requires j.JObj?
    ensures CheckBaseField(j.fields, IsMod).Failure? ==>
              Validate(j, validTypes) == Some(CheckBaseField(j.fields, IsMod).error)
    ensures CheckBaseField(j.fields, IsMod).Success? && CheckBaseField(j.fields, GameCode).Failure? ==>
              Validate(j, validTypes) == Some(CheckBaseField(j.fields, GameCode).error)
    ensures CheckBaseField(j.fields, IsMod).Success? && CheckBaseField(j.fields, GameCode).Success?
              && CheckBaseField(j.fields, Assets).Failure? ==>
              Validate(j, validTypes) == Some(CheckBaseField(j.fields, Assets).error)
    ensures CheckBaseField(j.fields, IsMod).Success? && CheckBaseField(j.fields, GameCode).Success?
              && CheckBaseField(j.fields, Assets).Success? && Validate(j, validTypes).Some? ==>
              !Validate(j, validTypes).value.MissingBaseField? && !Validate(j, validTypes).value.WrongBaseFieldType?
  {
  }

  /** A present base member of the wrong type fails with the type found, again only
      once the members before it have passed. */
  lemma ValidateReportsFirstMistypedBase(j: JValue, validTypes: seq<string>, f: BaseField, t: PyType)
    ensures Validate(j, validTypes) == Some(WrongBaseFieldType(f, t)) <==>
              && j.JObj?
              && Lookup(j.fields, BaseKey(f)).Some?
              && TypeOf(Lookup(j.fields, BaseKey(f)).value) == t
              && t != BaseType(f)
              && PassedBefore(j.fields, f)
  {
    if j.JObj? {
      BaseStage(j, validTypes);
      match f
      case IsMod =>
      case GameCode =>
      case Assets =>
    }
  }

  /** An empty `assets` object fails, but only after all three base members passed. */
  lemma ValidateEmptyAssets(j: JValue, validTypes: seq<string>)
    ensures Validate(j, validTypes) == Some(NoAssets) <==>
              && j.JObj?
              && HasTyped(j.fields, "is_mod", Bool)
              && HasTyped(j.fields, "game_code", Str)
              && HasTyped(j.fields, "assets", Dict)
              && |Lookup(j.fields, "assets").value.fields| == 0
  {
  }

  /** The per-asset checks run in source order and the first failing one is reported:
      a name of exactly 32 characters passes the length check; an object is required
      before any member is read; `type` must be a string before its membership in the
      valid types is tested; `filename` is checked before `tags`. */
  lemma AssetChecksInOrder(name: string, v: JValue, validTypes: seq<string>, t: PyType)
    ensures DecodeAsset(name, v, validTypes) == Failure(NameTooLong(name)) <==> |name| > MaxNameLength
    ensures DecodeAsset(name, v, validTypes) == Failure(AssetNotDict(name)) <==>
              |name| <= MaxNameLength && !v.JObj?
    ensures DecodeAsset(name, v, validTypes) == Failure(MissingAssetField(name, TypeField)) <==>
              |name| <= MaxNameLength && v.JObj? && Lookup(v.fields, "type").None?
    ensures DecodeAsset(name, v, validTypes) == Failure(WrongAssetFieldType(name, TypeField, t)) <==>
              && |name| <= MaxNameLength && v.JObj? && Lookup(v.fields, "type").Some?
              && TypeOf(Lookup(v.fields, "type").value) == t && t != Str
    ensures (exists t :: DecodeAsset(name, v, validTypes) == Failure(InvalidAssetType(name, t))) <==>
              && |name| <= MaxNameLength && v.JObj? && HasTyped(v.fields, "type", Str)
              && Lookup(v.fields, "type").value.s !in validTypes
    ensures DecodeAsset(name, v, validTypes) == Failure(MissingAssetField(name, FilenameField)) <==>
              && |name| <= MaxNameLength && v.JObj? && HasTyped(v.fields, "type", Str)
              && Lookup(v.fields, "type").value.s in validTypes
              && Lookup(v.fields, "filename").None?
    ensures DecodeAsset(name, v, validTypes) == Failure(WrongAssetFieldType(name, FilenameField, t)) <==>
              && |name| <= MaxNameLength && v.JObj? && HasTyped(v.fields, "type", Str)
              && Lookup(v.fields, "type").value.s in validTypes
              && Lookup(v.fields, "filename").Some?
              && TypeOf(Lookup(v.fields, "filename").value) == t && t != Str
    ensures DecodeAsset(name, v, validTypes) == Failure(MissingAssetField(name, TagsField)) <==>
              && |name| <= MaxNameLength && v.JObj? && HasTyped(v.fields, "type", Str)
              && Lookup(v.fields, "type").value.s in validTypes
              && HasTyped(v.fields, "filename", Str)
              && Lookup(v.fields, "tags").None?
    ensures DecodeAsset(name, v, validTypes) == Failure(WrongAssetFieldType(name, TagsField, t)) <==>
              && |name| <= MaxNameLength && v.JObj? && HasTyped(v.fields, "type", Str)
              && Lookup(v.fields, "type").value.s in validTypes
              && HasTyped(v.fields, "filename", Str)
              && Lookup(v.fields, "tags").Some?
              && TypeOf(Lookup(v.fields, "tags").value) == t && t != List
  {
  }

  /** The kind of value a member holds, or nothing when it is absent. */
  function KindOf(fields: seq<(string, JValue)>, key: string): Option<PyType> {
    match Lookup(fields, key)
    case None => None
    case Some(v) => Some(TypeOf(v))
  }

  /** Validation reads `is_mod` and `assets` in full but only the type of `game_code`:
      two top-level objects that agree on those agree on the verdict. So the content of
      `game_code` is never inspected and members other than the three are ignored. */
  lemma ValidateSeesOnlyCheckedMembers(f1: seq<(string, JValue)>, f2: seq<(string, JValue)>, validTypes: seq<string>)
    requires Lookup(f1, "is_mod") == Lookup(f2, "is_mod")
    requires KindOf(f1, "game_code") == KindOf(f2, "game_code")
    requires Lookup(f1, "assets") == Lookup(f2, "assets")
    ensures Validate(JObj(f1), validTypes) == Validate(JObj(f2), validTypes)
  {
  }

  /** Extra top-level members, appended after the others, do not change the verdict. */
  lemma ExtraMembersIgnored(fields: seq<(string, JValue)>, extra: seq<(string, JValue)>, validTypes: seq<string>)
    requires forall i :: 0 <= i < |extra| ==> extra[i].0 != "is_mod" && extra[i].0 != "game_code" && extra[i].0 != "assets"
    ensures Validate(JObj(fields + extra), validTypes) == Validate(JObj(fields), validTypes)
  {
    LookupAppend(fields, extra, "is_mod");
    LookupAppend(fields, extra, "game_code");
    LookupAppend(fields, extra, "assets");
    ValidateSeesOnlyCheckedMembers(fields + extra, fields, validTypes);
  }

  /** Any string `game_code` gives the same verdict, whatever its content or length. */
  lemma GameCodeContentIgnored(g1: string, g2: string, rest: seq<(string, JValue)>, validTypes: seq<string>)
    ensures Validate(JObj([("game_code", JStr(g1))] + rest), validTypes)
         == Validate(JObj([("game_code", JStr(g2))] + rest), validTypes)
  {
    var f1 := [("game_code", JStr(g1))] + rest;
    var f2 := [("game_code", JStr(g2))] + rest;
    assert f1[1..] == rest && f2[1..] == rest;
    ValidateSeesOnlyCheckedMembers(f1, f2, validTypes);
  }

  // ---------------------------------------------------------------------------
  // The wrong-type messages as written

  /** How a failing field check of the source really ends: `error` prints its message
      and stops the run, or building the message raises `TypeError` first. */
  datatype Abort = ErrorExit | TypeErrorRaised

  /** `check_for_valid_base_json_field` as written. Its wrong-type message adds the
      type objects `expectedType` and `foundType` to strings, and adding a type to a
      string raises `TypeError`, so that message is never shown. */
  function BaseFieldAsWritten(fields: seq<(string, JValue)>, f: BaseField): (r: Option<Abort>)
    ensures r.None? <==> CheckBaseField(fields, f).Success?
    ensures r == Some(TypeErrorRaised) <==>
              CheckBaseField(fields, f).Failure? && CheckBaseField(fields, f).error.WrongBaseFieldType?
  {
    match Lookup(fields, BaseKey(f))
    case None => Some(ErrorExit)
    case Some(v) => if TypeOf(v) != BaseType(f) then Some(TypeErrorRaised) else None
  }

  /** `check_for_valid_asset_json_field` as written, with the same fault. */
  function AssetFieldAsWritten(fields: seq<(string, JValue)>, f: AssetField): (r: Option<Abort>)
    ensures forall name :: r.None? <==> CheckAssetField(name, fields, f).Success?
    ensures forall name :: r == Some(TypeErrorRaised) <==>
              CheckAssetField(name, fields, f).Failure? && CheckAssetField(name, fields, f).error.WrongAssetFieldType?
  {
    match Lookup(fields, AssetKey(f))
    case None => Some(ErrorExit)
    case Some(v) => if TypeOf(v) != AssetType(f) then Some(TypeErrorRaised) else None
  }

  /** As written, every mistyped base member ends the run through `TypeError` and never
      through the wrong-type message. The check still stops on exactly the inputs the
      corrected check refuses, and the corrected check names the type it found. */
  lemma MistypedBaseFieldRaises(fields: seq<(string, JValue)>, f: BaseField)
    ensures BaseFieldAsWritten(fields, f) == Some(TypeErrorRaised) <==>
              Lookup(fields, BaseKey(f)).Some? && !HasTyped(fields, BaseKey(f), BaseType(f))
    ensures BaseFieldAsWritten(fields, f) == Some(ErrorExit) <==> Lookup(fields, BaseKey(f)).None?
    ensures BaseFieldAsWritten(fields, f).None? <==> CheckBaseField(fields, f).Success?
    ensures BaseFieldAsWritten(fields, f) == Some(TypeErrorRaised) ==>
              CheckBaseField(fields, f) == Failure(WrongBaseFieldType(f, TypeOf(Lookup(fields, BaseKey(f)).value)))
  {
  }

  /** The same for the members of an asset. */
  lemma MistypedAssetFieldRaises(name: string, fields: seq<(string, JValue)>, f: AssetField)
    ensures AssetFieldAsWritten(fields, f) == Some(TypeErrorRaised) <==>
              Lookup(fields, AssetKey(f)).Some? && !HasTyped(fields, AssetKey(f), AssetType(f))
    ensures AssetFieldAsWritten(fields, f) == Some(ErrorExit) <==> Lookup(fields, AssetKey(f)).None?
    ensures AssetFieldAsWritten(fields, f).None? <==> CheckAssetField(name, fields, f).Success?
    ensures AssetFieldAsWritten(fields, f) == Some(TypeErrorRaised) ==>
              CheckAssetField(name, fields, f) ==
                Failure(WrongAssetFieldType(name, f, TypeOf(Lookup(fields, AssetKey(f)).value)))
  {
  }

  /** `"is_mod": 1` stops the run with `TypeError`; the corrected check reports that
      `is_mod` holds a number. */
  lemma NumericIsModRaisesTypeError()
    ensures BaseFieldAsWritten([("is_mod", JNum(1.0))], IsMod) == Some(TypeErrorRaised)
    ensures CheckBaseField([("is_mod", JNum(1.0))], IsMod) == Failure(WrongBaseFieldType(IsMod, Number))
  {
  }

  /** `"tags": "a"` in an asset stops the run with `TypeError`; the corrected check
      reports that `tags` holds a string. */
  lemma StringTagsRaiseTypeError(name: string)
    ensures AssetFieldAsWritten([("tags", JStr("a"))], TagsField) == Some(TypeErrorRaised)
    ensures CheckAssetField(name, [("tags", JStr("a"))], TagsField) == Failure(WrongAssetFieldType(name, TagsField, Str))
  {
  }
}

=== FILE: pathtext.dfy ===
/** The two string operations the pipeline applies to file names: Python's
    `os.path.splitext`, as it behaves on Windows (where both `\` and `/` separate
    path components), and `str.lower` as far as it can affect a comparison with an
    all-ASCII extension. */
module PathText {

  /** The path separators of Windows. */
  const Seps: set<char> := {'\\', '/'}

  const Dot: set<char> := {'.'}

  predicate IsSep(c: char) {
    c in Seps
  }

  predicate IsDot(c: char) {
    c in Dot
  }

  /** The index of the last character of `s` that belongs to `target`, or -1:
      Python's `str.rfind`. */
  function LastIn(s: string, target: set<char>): (k: int)
    ensures -1 <= k < |s|
    ensures k >= 0 ==> s[k] in target
    ensures forall i :: k < i < |s| ==> s[i] !in target
  {
    if |s| == 0 then -1
    else if s[|s| - 1] in target then |s| - 1
    else LastIn(s[..|s| - 1], target)
  }

  /** The only index `LastIn` can return for a string whose last `target`
      character sits at `k`. */
  lemma LastInAt(s: string, target: set<char>, k: int)
    requires -1 <= k < |s|
    requires k >= 0 ==> s[k] in target
    requires forall i :: k < i < |s| ==> s[i] !in target
    ensures LastIn(s, target) == k
  {
  }

  predicate AllDots(s: string) {
    forall i :: 0 <= i < |s| ==> s[i] == '.'
  }

  /** True when `s` holds neither a dot nor a separator. */
  predicate Plain(s: string) {
    forall i :: 0 <= i < |s| ==> !IsDot(s[i]) && !IsSep(s[i])
  }

  /** `os.path.splitext`: the extension starts at the last dot of the last path
      component, unless every character of that component before the dot is a dot
      (a leading-dot name such as `.ktx` has no extension). The root and extension
      always put back together to the path, and a non-empty extension is one dot
      followed by neither dots nor separators. */
  function SplitExt(p: string): (r: (string, string))
    ensures r.0 + r.1 == p
    ensures r.1 == [] || (r.1[0] == '.' && Plain(r.1[1..]))
  {
    var sepIndex := LastIn(p, Seps);
    var dotIndex := LastIn(p, Dot);
    if dotIndex > sepIndex && !AllDots(p[sepIndex + 1..dotIndex]) then
      var ext := p[dotIndex..];
      assert p[..dotIndex] + ext == p;
      assert Plain(ext[1..]) by {
        forall i | 0 <= i < |ext[1..]|
          ensures !IsDot(ext[1..][i]) && !IsSep(ext[1..][i])
        {
          assert ext[1..][i] == p[dotIndex + 1 + i];
        }
      }
      (p[..dotIndex], ext)
    else
      (p, [])
  }

  /** A name whose last component holds a character other than a dot before its
      last dot splits at that dot: the root is everything before it and is kept
      unchanged. */
  lemma SplitExtAtLastDot(stem: string, x: string, i: nat)
    requires i < |stem| && !IsDot(stem[i]) && !IsSep(stem[i])
    requires forall k :: i < k < |stem| ==> !IsSep(stem[k])
    requires Plain(x)
    ensures SplitExt(stem + "." + x) == (stem, "." + x)
  {
    LastDotBeforePlain(stem, x);
    ComponentNotAllDots(stem, x, i);
    JoinedParts(stem, x);
    SplitExtAt(stem + "." + x, |stem|);
  }

  /** The part of the last component before the joining dot holds `stem[i]`, which is
      not a dot. */
  lemma ComponentNotAllDots(stem: string, x: string, i: nat)
    requires i < |stem| && !IsDot(stem[i]) && !IsSep(stem[i])
    requires forall k :: i < k < |stem| ==> !IsSep(stem[k])
    requires Plain(x)
    ensures LastIn(stem + "." + x, Seps) < |stem|
    ensures !AllDots((stem + "." + x)[LastIn(stem + "." + x, Seps) + 1..|stem|])
  {
    var p := stem + "." + x;
    LastSepBefore(stem, x, i);
    var sepIndex := LastIn(p, Seps);
    assert p[i] == stem[i];
    assert p[sepIndex + 1..|stem|][i - sepIndex - 1] == p[i];
  }

  /** A stem and an extension joined by a dot split back at the dot. */
  lemma JoinedParts(stem: string, x: string)
    ensures (stem + "." + x)[..|stem|] == stem && (stem + "." + x)[|stem|..] == "." + x
  {
  }

  /** A path whose last dot comes after its last separator, with something other
      than dots between them, splits at that dot. */
  lemma SplitExtAt(p: string, d: int)
    requires 0 <= d == LastIn(p, Dot)
    requires LastIn(p, Seps) < d
    requires !AllDots(p[LastIn(p, Seps) + 1..d])
    ensures SplitExt(p) == (p[..d], p[d..])
  {
  }

  /** The dot put between a stem and a plain extension is the last dot. */
  lemma LastDotBeforePlain(stem: string, x: string)
    requires Plain(x)
    ensures LastIn(stem + "." + x, Dot) == |stem|
  {
    var p := stem + "." + x;
    var d := |stem|;
    assert p[d] == '.';
    forall k | d < k < |p|
      ensures p[k] !in Dot
    {
      assert p[k] == x[k - d - 1];
    }
    LastInAt(p, Dot, d);
  }

  /** No separator follows position `i` of the stem, so the last one comes before it. */
  lemma LastSepBefore(stem: string, x: string, i: nat)
    requires i < |stem| && !IsSep(stem[i])
    requires forall k :: i < k < |stem| ==> !IsSep(stem[k])
    requires Plain(x)
    ensures LastIn(stem + "." + x, Seps) < i
  {
    var p := stem + "." + x;
    var d := |stem|;
    forall k | i <= k < |p|
      ensures p[k] !in Seps
    {
      if k < d {
        assert p[k] == stem[k];
      } else if k > d {
        assert p[k] == x[k - d - 1];
      }
    }
  }

  /** A last component made only of dots up to its last dot has no extension. */
  lemma SplitExtLeadingDots(dots: string, x: string)
    requires AllDots(dots)
    requires Plain(x)
    ensures SplitExt(dots + "." + x) == (dots + "." + x, "")
  {
    var p := dots + "." + x;
    forall k | 0 <= k < |p|
      ensures !IsSep(p[k])
      ensures k > |dots| ==> !IsDot(p[k])
    {
      if k < |dots| {
        assert p[k] == dots[k];
      } else if k > |dots| {
        assert p[k] == x[k - |dots| - 1];
      }
    }
    LastInAt(p, Seps, -1);
    LastInAt(p, Dot, |dots|);
    assert p[0..|dots|] == dots;
  }

  /** A name without a dot has no extension. */
  lemma SplitExtNoDot(p: string)
    requires forall i :: 0 <= i < |p| ==> !IsDot(p[i])
    ensures SplitExt(p) == (p, "")
  {
    LastInAt(p, Dot, -1);
  }

  /** The lower-case form of one character, for every character whose lower case is an
      ASCII character: the letters A to Z, and KELVIN SIGN, whose lower case is `k`.
      Other characters keep their value; their real lower case is never ASCII. */
  function LowerChar(c: char): char {
    if 'A' <= c <= 'Z' then (c as int + 32) as char
    else if c == '\U{212A}' then 'k'
    else c
  }

  function Lower(s: string): (r: string)
    ensures |r| == |s|
    ensures forall i :: 0 <= i < |s| ==> r[i] == LowerChar(s[i])
  {
    if |s| == 0 then [] else [LowerChar(s[0])] + Lower(s[1..])
  }
}

=== FILE: presence.dfy ===
/** `check_for_assets` of pack_loam_assets.py: every asset's raw file is looked for,
    all of them, before the run fails if any was missing. File existence is an oracle. */
module Presence {
  import opened Manifest

  /** Where an asset's raw file must be: `raw\<type>\<filename>`. */
  function RawPath(a: Asset): (p: string)
    ensures |p| == |a.assetType| + |a.filename| + 5
    ensures p[..4] == "raw\\"
    ensures p[4..4 + |a.assetType|] == a.assetType
    ensures p[4 + |a.assetType|] == '\\'
    ensures p[|p| - |a.filename|..] == a.filename
  {
    "raw\\" + a.assetType + "\\" + a.filename
  }

  /** The report the check prints: each path looked for, in manifest order, with
      whether it was found. */
  function Report(assets: seq<Asset>, isFile: string -> bool): (r: seq<(string, bool)>)
    ensures |r| == |assets|
    ensures AllFound(r) <==> forall a :: a in assets ==> isFile(RawPath(a))
  {
    var r := seq(|assets|, i requires 0 <= i < |assets| => (RawPath(assets[i]), isFile(RawPath(assets[i]))));
    assert AllFound(r) ==> forall a :: a in assets ==> isFile(RawPath(a)) by {
      if AllFound(r) {
        forall a | a in assets
          ensures isFile(RawPath(a))
        {
          var i :| 0 <= i < |assets| && assets[i] == a;
          assert r[i].1;
        }
      }
    }
    r
  }

  predicate AllFound(report: seq<(string, bool)>) {
    forall i :: 0 <= i < |report| ==> report[i].1
  }

  /** The paths the report marks as missing, in report order. */
  function MissingPaths(report: seq<(string, bool)>): (r: seq<string>)
    ensures forall p :: p in r <==> exists i :: 0 <= i < |report| && report[i] == (p, false)
  {
    if |report| == 0 then []
    else
      var rest := MissingPaths(report[1..]);
      assert forall i :: 0 < i < |report| ==> report[i] == report[1..][i - 1];
      if report[0].1 then rest else [report[0].0] + rest
  }

  /** The loop as the source writes it: look for every file without stopping at a
      missing one, remembering whether all were found. */
  method CheckForAssets(assets: seq<Asset>, isFile: string -> bool) returns (report: seq<(string, bool)>, allFound: bool)
    ensures |report| == |assets|
    ensures forall i :: 0 <= i < |assets| ==> report[i] == (RawPath(assets[i]), isFile(RawPath(assets[i])))
    ensures allFound <==> forall i :: 0 <= i < |assets| ==> isFile(RawPath(assets[i]))
    ensures report == Report(assets, isFile)
  {
    report := [];
    allFound := true;
    var k := 0;
    while k < |assets|
      invariant 0 <= k <= |assets|
      invariant report == Report(assets[..k], isFile)
      invariant allFound <==> forall i :: 0 <= i < k ==> isFile(RawPath(assets[i]))
    {
      var path := "raw\\" + assets[k].assetType + "\\" + assets[k].filename;
      var found := isFile(path);
      report := report + [(path, found)];
      if !found {
        allFound := false;
      }
      k := k + 1;
    }
    assert assets[..k] == assets;
  }

  /** The check fails exactly when at least one raw file is missing, and the report
      then names every missing file, not only the first. */
  lemma MissingReportIsComplete(assets: seq<Asset>, isFile: string -> bool)
    ensures AllFound(Report(assets, isFile)) <==> MissingPaths(Report(assets, isFile)) == []
    ensures forall i :: 0 <= i < |assets| && !isFile(RawPath(assets[i])) ==>
              RawPath(assets[i]) in MissingPaths(Report(assets, isFile))
    ensures forall p :: p in MissingPaths(Report(assets, isFile)) ==> !isFile(p)
  {
    var report := Report(assets, isFile);
    if !AllFound(report) {
      var i :| 0 <= i < |report| && !report[i].1;
      assert report[i] == (report[i].0, false);
      assert report[i].0 in MissingPaths(report);
    } else if MissingPaths(report) != [] {
      assert MissingPaths(report)[0] in MissingPaths(report);
    }
    forall i | 0 <= i < |assets| && !isFile(RawPath(assets[i]))
      ensures RawPath(assets[i]) in MissingPaths(report)
    {
      assert report[i] == (RawPath(assets[i]), false);
    }
  }
}

=== FILE: tools.dfy ===
/** The external-process boundary: `subprocess.run` is an oracle from argument vector
    to result, and a plan is a sequence of invocations run in order until one fails. */
module Tools {
  import opened Wrappers

  /** What `subprocess.run(..., capture_output=True, text=True)` gives back: the exit
      status with the captured text, or an exception because the program could not be
      started at all (which ends the run as well). */
  datatype ToolResult = Exited(code: int, stdout: string, stderr: string) | LaunchFailed

  predicate Succeeded(r: ToolResult) {
    r.Exited? && r.code == 0
  }

  /** One invocation of the plan. When `echoStdout` is set, non-empty standard output
      is echoed whatever the exit status; the conversion tools are never echoed. */
  datatype Step = Step(argv: seq<string>, echoStdout: bool)

  /** The invocation that ended the run, with the result that ended it (its stderr is
      what the user is shown). */
  datatype ToolFailure = ToolFailure(argv: seq<string>, result: ToolResult)

  /** What running a plan did: the argument vectors launched, in order, the outputs
      echoed, and the failure that stopped it, if any. */
  datatype Trace = Trace(invoked: seq<seq<string>>, echoed: seq<string>, failure: Option<ToolFailure>)

  function Argvs(steps: seq<Step>): (r: seq<seq<string>>)
    ensures |r| == |steps|
    ensures forall i :: 0 <= i < |steps| ==> r[i] == steps[i].argv
  {
    if |steps| == 0 then [] else [steps[0].argv] + Argvs(steps[1..])
  }

  /** The output a step echoes after running. */
  function Echo(s: Step, r: ToolResult): seq<string> {
    if s.echoStdout && r.Exited? && |r.stdout| > 0 then [r.stdout] else []
  }

  /** Runs the steps in order, stopping at the first that does not exit with 0. */
  function RunSteps(steps: seq<Step>, run: seq<string> -> ToolResult): (t: Trace)
    ensures |t.invoked| <= |steps|
    ensures |steps| > 0 ==> |t.invoked| > 0 && t.invoked[0] == steps[0].argv
    ensures t.failure.None? ==> |t.invoked| == |steps|
    ensures t.failure.Some? ==>
              && |t.invoked| > 0
              && t.failure.value.argv == t.invoked[|t.invoked| - 1]
              && !Succeeded(t.failure.value.result)
  {
    if |steps| == 0 then Trace([], [], None)
    else
      var s := steps[0];
      var r := run(s.argv);
      if !Succeeded(r) then Trace([s.argv], Echo(s, r), Some(ToolFailure(s.argv, r)))
      else
        var rest := RunSteps(steps[1..], run);
        Trace([s.argv] + rest.invoked, Echo(s, r) + rest.echoed, rest.failure)
  }

  predicate IsPrefix<T(==)>(a: seq<T>, b: seq<T>) {
    |a| <= |b| && a == b[..|a|]
  }

  /** Every invocation except possibly the last one exited with 0. */
  predicate AllButLastSucceeded(invoked: seq<seq<string>>, run: seq<string> -> ToolResult) {
    forall i :: 0 <= i < |invoked| - 1 ==> Succeeded(run(invoked[i]))
  }

  predicate AllSucceeded(invoked: seq<seq<string>>, run: seq<string> -> ToolResult) {
    forall i :: 0 <= i < |invoked| ==> Succeeded(run(invoked[i]))
  }

  /** A failure that names the last invocation, which did not succeed. */
  predicate EndsOnFailure(invoked: seq<seq<string>>, f: ToolFailure, run: seq<string> -> ToolResult) {
    && |invoked| > 0
    && f == ToolFailure(invoked[|invoked| - 1], run(invoked[|invoked| - 1]))
    && !Succeeded(f.result)
  }

  /** The abort rule. The steps launched are a prefix of the plan and every one but
      the last succeeded. The run fails exactly when the last one launched did not
      succeed, naming it; otherwise it launched the whole plan, all successfully. */
  predicate AbortRule(steps: seq<Step>, run: seq<string> -> ToolResult) {
    var t := RunSteps(steps, run);
    && IsPrefix(t.invoked, Argvs(steps))
    && AllButLastSucceeded(t.invoked, run)
    && (t.failure.None? <==> t.invoked == Argvs(steps) && AllSucceeded(t.invoked, run))
    && (t.failure.Some? ==> EndsOnFailure(t.invoked, t.failure.value, run))
  }

  lemma {:induction false} RunStepsAbortsOnFirstFailure(steps: seq<Step>, run: seq<string> -> ToolResult)
    ensures var t := RunSteps(steps, run);
            && IsPrefix(t.invoked, Argvs(steps))
            && AllButLastSucceeded(t.invoked, run)
            && (t.failure.None? <==> t.invoked == Argvs(steps) && AllSucceeded(t.invoked, run))
            && (t.failure.Some? ==> EndsOnFailure(t.invoked, t.failure.value, run))
  {
    if |steps| > 0 {
      RunStepsAbortsOnFirstFailure(steps[1..], run);
      assert AbortRule(steps[1..], run);
      if Succeeded(run(steps[0].argv)) {
        SucceededHeadKeepsRule(steps, run);
      } else {
        var t := RunSteps(steps, run);
        assert Argvs(steps)[..1] == [steps[0].argv];
        assert !AllSucceeded(t.invoked, run) by {
          assert t.invoked[0] == steps[0].argv;
        }
      }
    }
  }

  /** A first step that succeeds, in front of steps that keep the abort rule, keeps it. */
  lemma SucceededHeadKeepsRule(steps: seq<Step>, run: seq<string> -> ToolResult)
    requires |steps| > 0 && Succeeded(run(steps[0].argv))
    requires AbortRule(steps[1..], run)
    ensures AbortRule(steps, run)
  {
    var s := steps[0];
    var t := RunSteps(steps, run);
    var rest := RunSteps(steps[1..], run);
    assert Argvs(steps) == [s.argv] + Argvs(steps[1..]);
    assert t.invoked == [s.argv] + rest.invoked;
    assert Argvs(steps)[..|t.invoked|] == [s.argv] + Argvs(steps[1..])[..|rest.invoked|];
    forall i | 0 <= i < |t.invoked| - 1
      ensures Succeeded(run(t.invoked[i]))
    {
      if i > 0 {
        assert t.invoked[i] == rest.invoked[i - 1];
      }
    }
    if rest.failure.None? {
      forall i | 0 <= i < |t.invoked|
        ensures Succeeded(run(t.invoked[i]))
      {
        if i > 0 {
          assert t.invoked[i] == rest.invoked[i - 1];
        }
      }
    } else {
      assert t.invoked[|t.invoked| - 1] == rest.invoked[|rest.invoked| - 1];
      if t.invoked == Argvs(steps) {
        assert rest.invoked == Argvs(steps[1..]);
        assert !Succeeded(run(rest.invoked[|rest.invoked| - 1]));
      }
    }
  }
}

=== FILE: wrappers.dfy ===
/** Failure-compatible Option and Result datatypes used throughout the model. */
module Wrappers {

  datatype Option<+T> = None | Some(value: T) {

    predicate IsFailure() {
      None?
    }

    function PropagateFailure<U>(): Option<U>
      requires None?
    {
      None
    }

    function Extract(): T
      requires Some?
    {
      value
    }
  }

  datatype Result<+R, +E> = Success(value: R) | Failure(error: E) {

    predicate IsFailure() {
      Failure?
    }

    function PropagateFailure<U>(): Result<U, E>
      requires Failure?
    {
      Failure(error)
    }

    function Extract(): R
      requires Success?
    {
      value
    }
  }
}
